=== FILE: README.md ===
# Match consolidation, modelled in Dafny

This project models the match-consolidation pipeline of
`scripts/lib/match_cleanup.py`. The pipeline turns pairwise keypoint matches
between images into multi-image feature tracks, in five stages:

1. **merge_duplicates** (`KeypointMerge`). For each image it builds a table
   from rounded keypoint coordinate to the first *used* keypoint with that
   coordinate. It then rewrites every pair of every match list whose peer
   image is known to those canonical indices.
2. **check_for_pair_dups** (`PairChecks`). Each list of a known peer keeps
   the first occurrence of every pair, and the number dropped is counted.
3. **check_for_1vn_dups** (`PairChecks`). This stage only reads. It counts the
   pairs whose first index already appeared earlier in the same list.
4. **make_match_structure** (`MatchStructure`). Every pair that image `i`
   holds against a known peer `j > i` becomes a two-observation proto-track.
5. **link_matches** (`Linker`, `TrackSort`). Passes merge tracks that share
   an observation until a pass leaves the track count unchanged. Keypoint
   indices are then replaced by coordinates, and the tracks are sorted
   stably, longest first.

`Pipeline.Run` chains the stages in that order, as written.
`Pipeline.RunGuarded` is the same chain with the division by zero at the
end of `link_matches` guarded (see Findings).
`LinkExamples` holds two worked linking scenarios on concrete inputs.

How the source maps onto the model:

- A keypoint's coordinate is a fixed-point `Coord` in hundredths of a pixel.
  The two-decimal text key is that value, and the `np.allclose` sanity checks
  become equality.
- The `"%d-%d"` text keys are injective on naturals, so they become the
  `Pair` and `Obs` datatypes.
- An image's `match_list` dictionary is a sequence of `MatchList` in
  insertion order.
- `kp_used` is a flag on each `Keypoint`.
- `findImageByName` / `findIndexByName` are `Types.FindIndexByName`: the
  first image carrying the name, or `None`.
- An exception in the source ends the program, so an operation that would
  raise returns `Err`. This covers an index past a keypoint list (lines 75-76,
  186-187 and 289), a coordinate missing from the remap table (lines
  80-81) and the closing division by zero of `link_matches` (line 304).
- The linking loop is `Linker.Link`, which recurses on a strictly shorter
  list and stops when a pass keeps the length.

The comment above `link_matches` (line 227) describes it as grouping the
match chains that refer to the same keypoint, which suggests every
observation connected through matches ends in one track. The code appends an
observation to a track only when the track has no observation of that image
yet (lines 255-265), and a dropped observation is never registered. So an
observation connected through matches can end up in a different track from
its partners, or in no track at all: with (A,1)-(B,2), (B,2)-(C,3) and
(A,4)-(C,3) the result is the single track A1-B2-C3, and (A,4) is in none.
No keypoint there is matched twice into one peer image, so the one-to-many
diagnostic (`check_for_1vn_dups`, lines 164-193) reports nothing; the
conflict is spread across the lists of different images, which that check
does not compare. `Linker.Link` and `Linker.LinkLands` therefore promise
only that every proto-track lands in a track observing each of its images,
not that its observations are kept. The model follows the code;
`LinkExamples.OneVsManyBreaksChain` and `LinkExamples.ClosingMatchDropped`
prove the two cases.

## Model

| member | source | states |
|---|---|---|
| Types.FindIndexByName | scripts/lib/match_cleanup.py:67-70 | the peer lookup returns the first image carrying the name, and `None` exactly when no image carries it |
| KeypointMerge.CanonicalUnique | scripts/lib/match_cleanup.py:41-43 | two canonical keypoints (first used index of their coordinate) with the same coordinate are the same keypoint |
| KeypointMerge.BuildRemap | scripts/lib/match_cleanup.py:36-43 | the table has a key exactly for the coordinates of used keypoints, and maps each to the lowest used index with that coordinate (first seen wins) |
| KeypointMerge.RemapOfCanonical | scripts/lib/match_cleanup.py:42-43 | a canonical index is found again by looking up its own coordinate in the table |
| KeypointMerge.WithRemaps | scripts/lib/match_cleanup.py:33-43 | the first loop builds the table of every image and changes nothing else |
| KeypointMerge.RewritePair | scripts/lib/match_cleanup.py:73-81 | rewriting a pair succeeds exactly when both indices are in range and their coordinates are used somewhere in their image; each new index is the canonical keypoint with the old index's coordinate |
| KeypointMerge.RewriteList | scripts/lib/match_cleanup.py:71-106 | a list rewrites exactly when all its pairs resolve; the result keeps length and order, and pair by pair holds the canonical indices |
| KeypointMerge.RewriteLists | scripts/lib/match_cleanup.py:64-106 | an image's lists rewrite exactly when every list of a known peer resolves; lists of unknown peers stay as they are |
| KeypointMerge.RewriteImages | scripts/lib/match_cleanup.py:63-106 | the images rewrite in order, and the pass fails exactly when some list of some image fails |
| KeypointMerge.WithRemapsLookup | scripts/lib/match_cleanup.py:36-67 | filling in the tables does not change which image a peer name refers to |
| KeypointMerge.MergeDuplicates | scripts/lib/match_cleanup.py:24-106 | the merge succeeds exactly when every pair of every known-peer list resolves, and then yields the same images and keypoints with every such list canonicalized |
| KeypointMerge.CanonicalizedIsFixed | scripts/lib/match_cleanup.py:80-106 | canonicalizing already canonical pairs changes nothing |
| KeypointMerge.CanonicalizedResolves | scripts/lib/match_cleanup.py:80-81 | canonical pairs always resolve, so a second merge cannot fail |
| KeypointMerge.MergeIdempotent | scripts/lib/match_cleanup.py:71-106 | running the merge on its own output succeeds and returns that output unchanged |
| PairChecks.FirstOccurrences | scripts/lib/match_cleanup.py:139-147 | the kept pairs are the same set as the input, with no pair repeated, and never more of them |
| PairChecks.FirstOccurrencesOrdered | scripts/lib/match_cleanup.py:141-145 | kept pairs appear in the order of their first occurrence in the input |
| PairChecks.FirstOccurrencesOfNoDups | scripts/lib/match_cleanup.py:141-145 | a list without repeated pairs is kept whole |
| PairChecks.FirstOccurrencesIdempotent | scripts/lib/match_cleanup.py:139-150 | deduplicating twice is deduplicating once |
| PairChecks.DedupPairs | scripts/lib/match_cleanup.py:138-147 | the loop with its seen-set yields the first-occurrence list, and its counter equals input length minus output length |
| PairChecks.DedupLists | scripts/lib/match_cleanup.py:132-150 | each known-peer list is replaced by its first occurrences, other lists are untouched, and dropped plus kept equals the pairs before |
| PairChecks.DedupImages | scripts/lib/match_cleanup.py:131-150 | the same over the first `n` images, with the dropped count summed |
| PairChecks.CheckForPairDups | scripts/lib/match_cleanup.py:122-150 | every image is deduplicated in place, and dropped plus remaining pairs equals the pairs before |
| PairChecks.PairDupsRemoved | scripts/lib/match_cleanup.py:139-150 | afterwards no list of a known peer repeats a pair |
| PairChecks.CheckForPairDupsIdempotent | scripts/lib/match_cleanup.py:122-150 | a second run changes nothing and drops nothing |
| PairChecks.FirstWith | scripts/lib/match_cleanup.py:181-183 | the position of the first pair with a given first index |
| PairChecks.KpDict | scripts/lib/match_cleanup.py:180-183 | the table's keys are the first indices seen, each mapped to the second index of the first pair carrying it |
| PairChecks.SafeAtLast | scripts/lib/match_cleanup.py:184-187 | a repeated pair reads the peer at the remembered index and at its own second index, and both must be in range |
| PairChecks.OneVsManyScan | scripts/lib/match_cleanup.py:179-191 | the scan of one list aborts exactly when the warning branch indexes past the peer's keypoints; otherwise the count is the list length minus the number of distinct first indices |
| PairChecks.FirstIndicesBound | scripts/lib/match_cleanup.py:179-191 | there are never more distinct first indices than pairs, so the count is a real difference |
| PairChecks.ScanList | scripts/lib/match_cleanup.py:173-191 | one list is skipped when its peer is unknown, and otherwise scanned |
| PairChecks.ScanLists | scripts/lib/match_cleanup.py:173-191 | the lists of one image are scanned in order; the first failure aborts |
| PairChecks.ScanImages | scripts/lib/match_cleanup.py:172-191 | all lists of the first `n` images are scanned; success exactly when every one is in range |
| PairChecks.CheckFor1vnDups | scripts/lib/match_cleanup.py:164-193 | the diagnostic returns only a count, so no list changes; it fails exactly when some warning branch reads out of range, and otherwise reports the total repeat count |
| MatchStructure.TracksOfPairs | scripts/lib/match_cleanup.py:208-214 | one proto-track per pair, exactly the tracks of the pairs |
| MatchStructure.TracksOfList | scripts/lib/match_cleanup.py:201-214 | a list yields tracks only when its peer is known and later than the image, one per pair |
| MatchStructure.TracksOfLists | scripts/lib/match_cleanup.py:201-214 | an image yields exactly the tracks of pairs it holds against known later peers |
| MatchStructure.TracksOfImages | scripts/lib/match_cleanup.py:199-214 | the first `n` images yield exactly the proto-tracks whose first image is below `n` |
| MatchStructure.MakeMatchStructure | scripts/lib/match_cleanup.py:195-225 | the output is exactly the proto-tracks of the project, counted pair by pair; each has two observations of images `i < j` that exist |
| MatchStructure.ProtoAverage | scripts/lib/match_cleanup.py:217-219 | any list of two-observation tracks totals twice its length in observations |
| MatchStructure.StructureAverage | scripts/lib/match_cleanup.py:217-223 | the proto-tracks of a project total twice their count in observations, so the logged average is 2.0 |
| MatchStructure.ProtosExist | scripts/lib/match_cleanup.py:199-214 | the structure is non-empty exactly when some image holds a pair against a known later peer |
| Linker.FirstFound | scripts/lib/match_cleanup.py:240-245 | the scan reports the track of the first registered observation, or nothing when none is registered |
| Linker.Register | scripts/lib/match_cleanup.py:248-250 | every observation of the new track now points at its index; other entries are kept |
| Linker.Absorb | scripts/lib/match_cleanup.py:253-265 | the target track only grows at its end, by observations of the merged track; every image of the merged track is then present; distinct images per track are preserved; new lookup entries point at the target and name its observations |
| Linker.AbsorbJoins | scripts/lib/match_cleanup.py:253-265 | absorbing appends exactly the observations whose image the target track lacks and that come first for their image in the merged track, in order, and registers exactly those with the target index, every other lookup entry kept |
| Linker.Step | scripts/lib/match_cleanup.py:237-265 | one iteration keeps the lookup valid and preserves distinct images per track; when no observation is registered it appends the track and registers it; otherwise it replaces exactly the found track by that track with the new observations absorbed, and changes no other track; every old track is a prefix of its new version, and some new track observes every image of the iterated track |
| Linker.Pass | scripts/lib/match_cleanup.py:235-265 | a pass keeps the lookup valid and never lengthens the list; it keeps the length exactly when no two input tracks share an observation, and then returns its input; every input track lands in some output track that observes each of its images |
| Linker.LookupKeysInTracks | scripts/lib/match_cleanup.py:240-265 | every registered observation belongs to some new track |
| Linker.FoundIffShared | scripts/lib/match_cleanup.py:240-246 | the not-found branch is taken exactly when the track shares no observation with the registered ones |
| Linker.Link | scripts/lib/match_cleanup.py:228-280 | the loop ends with no more tracks than it started with, no two sharing an observation, the list a fixed point of the pass, distinct images per track preserved, and no observation invented |
| Linker.LinkLands | scripts/lib/match_cleanup.py:232-280 | every proto-track lands in some linked track that observes each of its images |
| Linker.LinkNonEmpty | scripts/lib/match_cleanup.py:232-280 | linking a non-empty list leaves at least one track |
| Linker.LinkFixedIffDisjoint | scripts/lib/match_cleanup.py:277-280 | the loop returns its input exactly when the input tracks are pairwise disjoint |
| Linker.SettlesAfterOnePass | scripts/lib/match_cleanup.py:277-280 | once a pass leaves no two tracks sharing an observation, the loop returns that pass's tracks |
| Linker.MaterializeTrack | scripts/lib/match_cleanup.py:288-290 | each observation's index is replaced by its keypoint's coordinate, and it fails exactly when some observation is out of range |
| Linker.MaterializeAll | scripts/lib/match_cleanup.py:286-290 | the same for every track, in order |
| Linker.MaterializeSorted | scripts/lib/match_cleanup.py:282-295 | materializing and sorting fails exactly when some observation is out of range; otherwise the result is as long as its input, longest first, and a stable permutation of the materialized tracks |
| Linker.LinkMatches | scripts/lib/match_cleanup.py:228-306 | as written: no proto-tracks raise at the closing average; otherwise it fails exactly when some linked observation is out of range, and the result is the linked tracks with coordinates, as many as linked tracks and no more than the proto-tracks, longest first, a permutation that keeps tracks of equal length in order |
| Linker.LinkMatchesGuarded | scripts/lib/match_cleanup.py:228-306 | corrected: it fails exactly when some linked observation is out of range; otherwise it returns the same sorted tracks as above |
| Linker.GuardedAgrees | scripts/lib/match_cleanup.py:302-304 | both definitions agree on every non-empty list of proto-tracks; on the empty list the source raises and the corrected definition returns no tracks |
| TrackSort.Insert | scripts/lib/match_cleanup.py:295 | inserting before the first track no longer than the new one keeps the order, adds exactly that track, and keeps equal lengths in order |
| TrackSort.SortLongestFirst | scripts/lib/match_cleanup.py:293-295 | the sort is longest first, a permutation, and stable: per length, tracks keep their input order |
| TrackSort.LongestFirstUnique | scripts/lib/match_cleanup.py:295 | a longest-first list is fixed by the per-length order, so any stable sort by length gives this result |
| LinkExamples.FirstStep | scripts/lib/match_cleanup.py:246-251 | the first track of a pass is appended and both its observations point at index 0 |
| LinkExamples.ChainMerges | scripts/lib/match_cleanup.py:232-280 | (A,1)-(B,2), (B,2)-(C,3) and (A,5)-(C,9) link to the chain A1-B2-C3 and the separate track A5-C9 |
| LinkExamples.OneVsManyBreaksChain | scripts/lib/match_cleanup.py:253-265 | (A,1)-(B,2), (A,1)-(B,3) and (B,3)-(C,4) link to two tracks, leaving A1 and B3 apart although they are matched |
| LinkExamples.ClosingMatchDropped | scripts/lib/match_cleanup.py:232-280 | (A,1)-(B,2), (B,2)-(C,3) and (A,4)-(C,3), with no keypoint matched twice into one peer image, link to the single track A1-B2-C3, and (A,4) is in no track |
| Pipeline.MergedInRange | scripts/lib/match_cleanup.py:71-106 | after the merge, every pair of a known-peer list indexes real keypoints in both images |
| Pipeline.DedupInRange | scripts/lib/match_cleanup.py:139-150 | deduplication keeps every pair in range |
| Pipeline.ScanInRange | scripts/lib/match_cleanup.py:184-187 | on a project in range the one-to-many diagnostic cannot fail |
| Pipeline.ProtosInRange | scripts/lib/match_cleanup.py:207-214 | every proto-track observation names a real keypoint |
| Pipeline.LinkInRange | scripts/lib/match_cleanup.py:235-280 | linking only regroups observations, so tracks in range stay in range |
| Pipeline.MergedProtoPair | scripts/lib/match_cleanup.py:71-106 | the merge keeps every list's peer and length, so it keeps whether some image holds a pair against a known later peer |
| Pipeline.DedupProtoPair | scripts/lib/match_cleanup.py:139-150 | deduplication empties no list, so it keeps the same |
| Pipeline.AfterMerge | scripts/lib/match_cleanup.py:122-214 | after a successful merge, the one-to-many scan and the coordinate lookup cannot fail, and there are proto-tracks exactly when the input holds a pair against a known later peer |
| Pipeline.LinkedShape | scripts/lib/match_cleanup.py:282-295 | the materialized and sorted linked tracks are longest first, no more than the proto-tracks, and each observes an image at most once |
| Pipeline.Run | scripts/lib/match_cleanup.py:24-306 | as written, the pipeline succeeds exactly when the merge succeeds and some image holds a pair against a known later peer; with no such pair it fails at the closing average; on success it returns the merged project with every known-peer list deduplicated, the number of pairs dropped, the one-to-many repeat count of that project, and a non-empty list that is its linked proto-tracks with coordinates, sorted stably longest first |
| Pipeline.RunGuarded | scripts/lib/match_cleanup.py:24-306 | with the closing average guarded, the pipeline fails exactly when the merge fails; with no pair against a known later peer it yields no tracks; on success it returns the same four results as above |
| Pipeline.RunsAgree | scripts/lib/match_cleanup.py:302-304 | whenever some image holds a pair against a known later peer, both pipelines give the same result |
| Pipeline.SingleImageRaises | scripts/lib/match_cleanup.py:302-304 | a project of one image with no matches makes the pipeline as written fail at the closing average, while the guarded one returns the project with no tracks |

## Findings

| source | as written | input that shows it | evidently intended | confidence | as-written member | corrected member |
|---|---|---|---|---|---|---|
| scripts/lib/match_cleanup.py:302-304 | the closing log line is guarded by `count >= 1`, which holds after any run of the loop, so it divides by `len(matches_direct)` even when there are no tracks | a project whose images hold no pair against a known later peer, such as one image with no matches | guard by the number of tracks, as `make_match_structure` does at line 221, so that no proto-tracks link to no tracks | not executed | Linker.LinkMatches, Pipeline.SingleImageRaises | Linker.LinkMatchesGuarded, Linker.GuardedAgrees, Pipeline.RunGuarded |

## Left out

- `triangulate_smart` (lines 308-351): floating-point linear algebra, camera poses and elevation lookups, all outside this model.
- Text formatting of coordinates (`"%.2f"`) and the `np.allclose` tolerances: coordinates are fixed-point values compared by equality. The "OOPS" prints (lines 85-104) can therefore never fire and are not modelled.
- Logging, `tqdm` progress bars and `print` diagnostics, including the per-list counts printed at lines 149 and 193. The dead `if False:` blocks (lines 112-120 and 154-162) and the module-level `Matcher` (line 22) are left out too.
- The `used` and rewrite `count` counters (lines 37-40 and 66-84): they only feed commented-out prints.
- `proj.compute_kp_usage` (line 26): the used flag is an input on each keypoint. The project loader and `project.py` are not part of this model; name lookup is modelled as the first image with the name.
- The `[None, -1]` placeholders of each track (line 210): the stages modelled never read or change them, so a track is just its observations.
- In-place mutation and aliasing: the model returns new values. The source mutates its caller's data: when linking settles on the first pass, lines 288-290 rewrite the observations of the caller's proto-tracks and line 295 sorts the caller's list in place. After more passes, the shallow copies at line 251 still share observation lists with the caller's proto-tracks, and line 290 rewrites those too.
- KeypointMerge.MergeIdempotent: holds the `used` flags fixed between the two runs. The source recomputes them at line 26 through `proj.compute_kp_usage`, which is not part of this model, so a second run in the source may start from other flags.
- Partial state before an exception: the merge rewrites lists in place before a later pair raises. The model returns `Err` without that state, because the exception ends the program.
- Negative indices: pair indices are natural numbers. Python would read a negative index from the end of a list.
- The order in which a caller runs the stages is not part of the source file. `Pipeline.Run` assumes the order of the stage list above.
- MatchStructure.MakeMatchStructure: its contract states which tracks appear and how many, not their image-then-list-then-pair order; that order is only visible in the definition.
- PairChecks.CheckFor1vnDups: returns the summed repeat count, in place of the per-list counts the source logs.
- `scripts/0-distort-test.py`: a camera-distortion command-line script over OpenCV, with no logic of its own to model.

=== FILE: link_examples.dfy ===
/** Worked linking scenarios on three images A = 0, B = 1, C = 2. */
module LinkExamples {
  import opened Types
  import opened Linker

  function Proto(i: nat, a: nat, j: nat, b: nat): Track
  {
    Track([Obs(i, a), Obs(j, b)])
  }

  /** The pass over a list extended by one track steps once more. The
      per-length instances below only unfold the pass; they are separate
      lemmas so that each proof stays under the resource limit. */
  lemma PassSnoc1(ts: seq<Track>, t: Track, ts': seq<Track>)
    requires ts' == ts + [t]
    ensures Pass(ts') == Step(Pass(ts), t)
  {
    assert ts'[..|ts|] == ts;
  }

  /** Short track lists as appends, proved apart from any pass. */
  lemma AppendOne(t0: Track)
    ensures [t0] == [] + [t0]
  {
  }

  lemma AppendTwo(t0: Track, t1: Track)
    ensures [t0, t1] == [t0] + [t1]
  {
  }

  lemma AppendThree(t0: Track, t1: Track, t2: Track)
    ensures [t0, t1, t2] == [t0, t1] + [t2]
  {
  }

  lemma PassOfOne(t0: Track)
    ensures Pass([t0]) == Step(PassState([], map[]), t0)
  {
    AppendOne(t0);
    PassSnoc1([], t0, [t0]);
  }

  lemma PassOfTwo(t0: Track, t1: Track)
    ensures Pass([t0, t1]) == Step(Pass([t0]), t1)
  {
    AppendTwo(t0, t1);
    PassSnoc1([t0], t1, [t0, t1]);
  }

  lemma PassOfThreeLast(t0: Track, t1: Track, t2: Track)
    ensures Pass([t0, t1, t2]) == Step(Pass([t0, t1]), t2)
  {
    AppendThree(t0, t1, t2);
    PassSnoc1([t0, t1], t2, [t0, t1, t2]);
  }

  /** The pass over three tracks is three steps from the empty state. */
  lemma PassOfThree(t0: Track, t1: Track, t2: Track)
    ensures Pass([t0, t1, t2]) == Step(Step(Step(PassState([], map[]), t0), t1), t2)
  {
    PassOfOne(t0);
    PassOfTwo(t0, t1);
    PassOfThreeLast(t0, t1, t2);
  }

  /** The first step appends a track and registers both its observations. */
  lemma FirstStep(t: Track)
    requires |t.obs| == 2
    ensures Step(PassState([], map[]), t).tracks == [t]
    ensures Step(PassState([], map[]), t).lookup.Keys == {t.obs[0], t.obs[1]}
    ensures forall o :: o in Step(PassState([], map[]), t).lookup ==> Step(PassState([], map[]), t).lookup[o] == 0
  {
    var r := Step(PassState([], map[]), t);
    assert FirstFound(t.obs, map[]) == None;
    assert r.tracks == [t] && r.lookup.Keys == ObsSet(t);
    assert ObsSet(t) == {t.obs[0], t.obs[1]} by {
      assert forall o :: o in ObsSet(t) ==> o == t.obs[0] || o == t.obs[1];
      assert t.obs[0] in ObsSet(t) && t.obs[1] in ObsSet(t);
    }
  }

  lemma DisjointPair(u: Track, v: Track)
    requires forall a, b :: 0 <= a < |u.obs| && 0 <= b < |v.obs| ==> u.obs[a] != v.obs[b]
    ensures PairwiseDisjoint([u, v])
  {
    assert ObsSet([u, v][0]) !! ObsSet([u, v][1]);
  }

  /** Proto-tracks (A,1)-(B,2), (B,2)-(C,3) and (A,5)-(C,9): the first two
      chain through (B,2) and become one track of three observations, the
      third stays apart, and a second pass confirms the fixed point. */
  lemma ChainMerges(t0: Track, t1: Track, t2: Track)
    requires t0 == Proto(0, 1, 1, 2) && t1 == Proto(1, 2, 2, 3) && t2 == Proto(0, 5, 2, 9)
    ensures Link([t0, t1, t2]) == [Track([Obs(0, 1), Obs(1, 2), Obs(2, 3)]), t2]
  {
    var merged := Track([Obs(0, 1), Obs(1, 2), Obs(2, 3)]);
    ChainFirstPass(t0, t1, t2, merged);
    ChainDisjoint(merged, t2);
    SettlesAfterOnePass([t0, t1, t2]);
  }

  lemma ChainDisjoint(merged: Track, t2: Track)
    requires merged == Track([Obs(0, 1), Obs(1, 2), Obs(2, 3)]) && t2 == Proto(0, 5, 2, 9)
    ensures PairwiseDisjoint([merged, t2])
  {
    DisjointPair(merged, t2);
  }

  lemma ChainFirstPass(t0: Track, t1: Track, t2: Track, merged: Track)
    requires t0 == Proto(0, 1, 1, 2) && t1 == Proto(1, 2, 2, 3) && t2 == Proto(0, 5, 2, 9)
    requires merged == Track([Obs(0, 1), Obs(1, 2), Obs(2, 3)])
    ensures Pass([t0, t1, t2]).tracks == [merged, t2]
  {
    PassOfThree(t0, t1, t2);
    var s1 := Step(PassState([], map[]), t0);
    FirstStep(t0);
    ChainSecondStep(t0, t1, merged, s1);
    ChainThirdStep(merged, t2, Step(s1, t1));
  }

  lemma ChainSecondStep(t0: Track, t1: Track, merged: Track, s1: PassState)
    requires t0 == Proto(0, 1, 1, 2) && t1 == Proto(1, 2, 2, 3)
    requires merged == Track([Obs(0, 1), Obs(1, 2), Obs(2, 3)])
    requires LookupValid(s1) && s1.tracks == [t0] && s1.lookup.Keys == {Obs(0, 1), Obs(1, 2)}
    requires forall o :: o in s1.lookup ==> s1.lookup[o] == 0
    ensures Step(s1, t1).tracks == [merged]
    ensures Step(s1, t1).lookup.Keys == {Obs(0, 1), Obs(1, 2), Obs(2, 3)}
  {
    assert t1.obs[0] in s1.lookup;
    assert FirstFound(t1.obs, s1.lookup) == Some(0);
    ChainAbsorb(t0, t1, merged, s1.lookup);
  }

  lemma ChainThirdStep(merged: Track, t2: Track, s2: PassState)
    requires t2 == Proto(0, 5, 2, 9)
    requires LookupValid(s2) && s2.tracks == [merged]
    requires s2.lookup.Keys == {Obs(0, 1), Obs(1, 2), Obs(2, 3)}
    ensures Step(s2, t2).tracks == [merged, t2]
  {
    assert FirstFound(t2.obs, s2.lookup) == None;
  }

  lemma ChainAbsorb(t0: Track, t1: Track, merged: Track, lookup: map<Obs, nat>)
    requires t0 == Proto(0, 1, 1, 2) && t1 == Proto(1, 2, 2, 3)
    requires merged == Track([Obs(0, 1), Obs(1, 2), Obs(2, 3)])
    requires lookup.Keys == {Obs(0, 1), Obs(1, 2)}
    ensures Absorb(t0, t1.obs, 0, lookup).0 == merged
    ensures Absorb(t0, t1.obs, 0, lookup).1.Keys == {Obs(0, 1), Obs(1, 2), Obs(2, 3)}
  {
    assert t0.obs[1].img == 1;
    assert t1.obs[1..] == [Obs(2, 3)];
    assert !HasImage(t0, 2);
    assert Absorb(t0, t1.obs, 0, lookup) == Absorb(t0, [Obs(2, 3)], 0, lookup);
    assert [Obs(2, 3)][1..] == [];
    assert t0.obs + [Obs(2, 3)] == merged.obs;
    assert Absorb(t0, [Obs(2, 3)], 0, lookup) == Absorb(merged, [], 0, lookup[Obs(2, 3) := 0]);
  }

  /** Proto-tracks (A,1)-(B,2), (A,1)-(B,3) and (B,3)-(C,4): the second merges
      into the first through (A,1), but its (B,3) is dropped because the track
      already observes image B, and (B,3) is never registered. The third then
      starts a track of its own: (A,1) and (B,3), matched to each other, end in
      different tracks, so linking is not the transitive closure of the
      matches when one keypoint is matched to two keypoints of another image. */
  lemma OneVsManyBreaksChain(t0: Track, t1: Track, t2: Track)
    requires t0 == Proto(0, 1, 1, 2) && t1 == Proto(0, 1, 1, 3) && t2 == Proto(1, 3, 2, 4)
    ensures Link([t0, t1, t2]) == [t0, t2]
  {
    DroppedFirstPass(t0, t1, t2);
    DroppedDisjoint(t0, t2);
    SettlesAfterOnePass([t0, t1, t2]);
  }

  lemma DroppedDisjoint(t0: Track, t2: Track)
    requires t0 == Proto(0, 1, 1, 2) && t2 == Proto(1, 3, 2, 4)
    ensures PairwiseDisjoint([t0, t2])
  {
    DisjointPair(t0, t2);
  }

  lemma DroppedFirstPass(t0: Track, t1: Track, t2: Track)
    requires t0 == Proto(0, 1, 1, 2) && t1 == Proto(0, 1, 1, 3) && t2 == Proto(1, 3, 2, 4)
    ensures Pass([t0, t1, t2]).tracks == [t0, t2]
  {
    PassOfThree(t0, t1, t2);
    var s1 := Step(PassState([], map[]), t0);
    FirstStep(t0);
    DroppedSecondStep(t0, t1, s1);
    DroppedThirdStep(t0, t2, Step(s1, t1));
  }

  lemma DroppedSecondStep(t0: Track, t1: Track, s1: PassState)
    requires t0 == Proto(0, 1, 1, 2) && t1 == Proto(0, 1, 1, 3)
    requires LookupValid(s1) && s1.tracks == [t0] && s1.lookup.Keys == {Obs(0, 1), Obs(1, 2)}
    requires forall o :: o in s1.lookup ==> s1.lookup[o] == 0
    ensures Step(s1, t1) == s1
  {
    assert t1.obs[0] in s1.lookup;
    assert FirstFound(t1.obs, s1.lookup) == Some(0);
    DroppedAbsorb(t0, t1, s1.lookup);
    assert [t0][0 := t0] == [t0];
  }

  lemma DroppedThirdStep(t0: Track, t2: Track, s2: PassState)
    requires t2 == Proto(1, 3, 2, 4)
    requires LookupValid(s2) && s2.tracks == [t0]
    requires s2.lookup.Keys == {Obs(0, 1), Obs(1, 2)}
    ensures Step(s2, t2).tracks == [t0, t2]
  {
    assert FirstFound(t2.obs, s2.lookup) == None;
  }

  lemma DroppedAbsorb(t0: Track, t1: Track, lookup: map<Obs, nat>)
    requires t0 == Proto(0, 1, 1, 2) && t1 == Proto(0, 1, 1, 3)
    ensures Absorb(t0, t1.obs, 0, lookup) == (t0, lookup)
  {
    assert t0.obs[0].img == 0 && t0.obs[1].img == 1;
    assert t1.obs[1..] == [Obs(1, 3)];
    assert [Obs(1, 3)][1..] == [];
    assert Absorb(t0, t1.obs, 0, lookup) == Absorb(t0, [Obs(1, 3)], 0, lookup);
    assert Absorb(t0, [Obs(1, 3)], 0, lookup) == Absorb(t0, [], 0, lookup);
  }

  /** Proto-tracks (A,1)-(B,2), (B,2)-(C,3) and (A,4)-(C,3), with no
      keypoint matched twice into one peer image: the third is found through
      (C,3), but the chain track already observes images A and C, so (A,4) is
      neither appended nor registered. Linking leaves the one track A1-B2-C3,
      and (A,4) ends in no track at all. */
  lemma ClosingMatchDropped(t0: Track, t1: Track, t2: Track)
    requires t0 == Proto(0, 1, 1, 2) && t1 == Proto(1, 2, 2, 3) && t2 == Proto(0, 4, 2, 3)
    ensures Link([t0, t1, t2]) == [Track([Obs(0, 1), Obs(1, 2), Obs(2, 3)])]
    ensures forall a :: 0 <= a < |Link([t0, t1, t2])| ==> Obs(0, 4) !in Link([t0, t1, t2])[a].obs
  {
    var merged := Track([Obs(0, 1), Obs(1, 2), Obs(2, 3)]);
    ClosingFirstPass(t0, t1, t2, merged);
    SingleDisjoint(merged);
    SettlesAfterOnePass([t0, t1, t2]);
    MissingFromChain(merged);
  }

  lemma MissingFromChain(merged: Track)
    requires merged == Track([Obs(0, 1), Obs(1, 2), Obs(2, 3)])
    ensures forall a :: 0 <= a < |[merged]| ==> Obs(0, 4) !in [merged][a].obs
  {
    assert [merged][0] == merged;
  }

  lemma SingleDisjoint(t: Track)
    ensures PairwiseDisjoint([t])
  {
  }

  lemma ClosingFirstPass(t0: Track, t1: Track, t2: Track, merged: Track)
    requires t0 == Proto(0, 1, 1, 2) && t1 == Proto(1, 2, 2, 3) && t2 == Proto(0, 4, 2, 3)
    requires merged == Track([Obs(0, 1), Obs(1, 2), Obs(2, 3)])
    ensures Pass([t0, t1, t2]).tracks == [merged]
  {
    PassOfThree(t0, t1, t2);
    var s1 := Step(PassState([], map[]), t0);
    FirstStep(t0);
    ChainSecondStep(t0, t1, merged, s1);
    ClosingThirdStep(merged, t2, Step(s1, t1));
  }

  lemma ClosingThirdStep(merged: Track, t2: Track, s2: PassState)
    requires merged == Track([Obs(0, 1), Obs(1, 2), Obs(2, 3)]) && t2 == Proto(0, 4, 2, 3)
    requires LookupValid(s2) && s2.tracks == [merged]
    requires s2.lookup.Keys == {Obs(0, 1), Obs(1, 2), Obs(2, 3)}
    ensures Step(s2, t2).tracks == [merged]
  {
    assert t2.obs[1] in s2.lookup;
    assert FirstFound(t2.obs, s2.lookup) == Some(0);
    ClosingAbsorb(merged, t2, s2.lookup);
    assert [merged][0 := merged] == [merged];
  }

  lemma ClosingAbsorb(merged: Track, t2: Track, lookup: map<Obs, nat>)
    requires merged == Track([Obs(0, 1), Obs(1, 2), Obs(2, 3)]) && t2 == Proto(0, 4, 2, 3)
    ensures Absorb(merged, t2.obs, 0, lookup) == (merged, lookup)
  {
    assert merged.obs[0].img == 0 && merged.obs[2].img == 2;
    assert t2.obs[1..] == [Obs(2, 3)];
    assert [Obs(2, 3)][1..] == [];
    assert Absorb(merged, t2.obs, 0, lookup) == Absorb(merged, [Obs(2, 3)], 0, lookup);
    assert Absorb(merged, [Obs(2, 3)], 0, lookup) == Absorb(merged, [], 0, lookup);
  }
}

=== FILE: linker.dfy ===
/** Linking of proto-tracks into multi-image tracks (link_matches): passes
    that merge tracks sharing an observation, repeated until a pass merges
    nothing. */
module Linker {
  import opened Types
  import opened TrackSort

  /** The state of one pass: the new track list and the table from
      observation to the index of the new track it was registered with. */
  datatype PassState = PassState(tracks: seq<Track>, lookup: map<Obs, nat>)

  /** Every registered observation points at a new track that holds it. */
  predicate LookupValid(st: PassState)
  {
    forall o :: o in st.lookup ==> st.lookup[o] < |st.tracks| && o in st.tracks[st.lookup[o]].obs
  }

  /** Every observation of every track of a list. */
  function AllObs(ts: seq<Track>): set<Obs>
  {
    if |ts| == 0 then {} else AllObs(ts[..|ts| - 1]) + ObsSet(ts[|ts| - 1])
  }

  lemma {:induction false} AllObsMember(ts: seq<Track>, o: Obs)
    ensures o in AllObs(ts) <==> exists a :: 0 <= a < |ts| && o in ts[a].obs
    decreases |ts|
  {
    if |ts| > 0 {
      var n := |ts| - 1;
      AllObsMember(ts[..n], o);
      assert forall a :: 0 <= a < n ==> ts[..n][a] == ts[a];
      assert o in ObsSet(ts[n]) <==> o in ts[n].obs;
    }
  }

  /** No two tracks of the list share an observation. */
  predicate PairwiseDisjoint(ts: seq<Track>)
  {
    forall a, b :: 0 <= a < b < |ts| ==> ObsSet(ts[a]) !! ObsSet(ts[b])
  }

  /** Every track of the list has at most one observation per image. */
  predicate AllDistinctImages(ts: seq<Track>)
  {
    forall a :: 0 <= a < |ts| ==> DistinctImages(ts[a])
  }

  /** `u` is `t` possibly grown at its end. */
  predicate Extends(t: Track, u: Track)
  {
    |t.obs| <= |u.obs| && u.obs[..|t.obs|] == t.obs
  }

  /** Every track of `ts` keeps its place in `rs`, possibly grown at its end;
      `rs` may have more tracks after them. */
  predicate Grows(ts: seq<Track>, rs: seq<Track>)
  {
    |ts| <= |rs| && forall b :: 0 <= b < |ts| ==> Extends(ts[b], rs[b])
  }

  /** Track `u` observes every image that track `t` observes. */
  predicate CoversImages(u: Track, t: Track)
  {
    forall k :: 0 <= k < |t.obs| ==> HasImage(u, t.obs[k].img)
  }

  /** Every track of `ts` ended up in one track of `rs` that observes each of
      its images: nothing was thrown away, only merged. */
  predicate Lands(ts: seq<Track>, rs: seq<Track>)
  {
    forall a :: 0 <= a < |ts| ==> LandsIn(ts[a], rs)
  }

  /** Some track of `rs` observes every image of `t`. */
  predicate LandsIn(t: Track, rs: seq<Track>)
  {
    exists b :: 0 <= b < |rs| && CoversImages(rs[b], t)
  }

  /** The track index of the first observation of `obs` already registered. */
  function FirstFound(obs: seq<Obs>, lookup: map<Obs, nat>): (r: Option<nat>)
    ensures r.None? <==> forall k :: 0 <= k < |obs| ==> obs[k] !in lookup
    ensures r.Some? ==>
      exists k :: 0 <= k < |obs| && obs[k] in lookup && lookup[obs[k]] == r.value && forall m :: 0 <= m < k ==> obs[m] !in lookup
    decreases |obs|
  {
    if |obs| == 0 then None
    else if obs[0] in lookup then Some(lookup[obs[0]])
    else
      assert forall k :: 1 <= k < |obs| ==> obs[1..][k - 1] == obs[k];
      var r := FirstFound(obs[1..], lookup);
      if r.Some? then
        var k :| 0 <= k < |obs[1..]| && obs[1..][k] in lookup && lookup[obs[1..][k]] == r.value
          && forall m :: 0 <= m < k ==> obs[1..][m] !in lookup;
        assert obs[k + 1] in lookup && lookup[obs[k + 1]] == r.value && forall m :: 0 <= m < k + 1 ==> obs[m] !in lookup;
        r
      else r
  }

  /** Registers every observation of `obs` with track index `index`. */
  function Register(lookup: map<Obs, nat>, obs: seq<Obs>, index: nat): (r: map<Obs, nat>)
    ensures r.Keys == lookup.Keys + set k | 0 <= k < |obs| :: obs[k]
    ensures forall o :: o in r ==> r[o] == (if o in obs then index else lookup[o])
  {
    lookup + map o | o in obs :: index
  }

  /** The merge branch: appends to `existing` each observation of `obs` whose
      image it does not have yet (counting what was appended before), and
      registers each appended observation with `index`. */
  function Absorb(existing: Track, obs: seq<Obs>, index: nat, lookup: map<Obs, nat>): (r: (Track, map<Obs, nat>))
    ensures |existing.obs| <= |r.0.obs| && r.0.obs[..|existing.obs|] == existing.obs
    ensures forall o :: o in r.0.obs ==> o in existing.obs || o in obs
    ensures forall k :: 0 <= k < |obs| ==> HasImage(r.0, obs[k].img)
    ensures DistinctImages(existing) ==> DistinctImages(r.0)
    ensures lookup.Keys <= r.1.Keys
    ensures forall o :: o in r.1 ==> (o in lookup && r.1[o] == lookup[o]) || (r.1[o] == index && o in r.0.obs)
    decreases |obs|
  {
    if |obs| == 0 then (existing, lookup)
    else
      var o := obs[0];
      assert forall k :: 1 <= k < |obs| ==> obs[1..][k - 1] == obs[k];
      if HasImage(existing, o.img) then
        var r := Absorb(existing, obs[1..], index, lookup);
        assert r.0.obs[..|existing.obs|] == existing.obs;
        var w :| 0 <= w < |existing.obs| && existing.obs[w].img == o.img;
        assert r.0.obs[w] == existing.obs[w];
        r
      else
        var grown := Track(existing.obs + [o]);
        var r := Absorb(grown, obs[1..], index, lookup[o := index]);
        GrowFacts(existing, o, r.0);
        r
  }

  /** Observation `k` of `obs` joins track `existing` in the merge branch:
      the track lacks its image, and no earlier observation of `obs` has that
      image (the first one with it would have joined already). */
  predicate Joins(existing: Track, obs: seq<Obs>, k: nat)
    requires k < |obs|
  {
    !HasImage(existing, obs[k].img) && forall m :: 0 <= m < k ==> obs[m].img != obs[k].img
  }

  /** The observations among the first `n` of `obs` that join `existing`,
      in `obs` order. */
  function Joining(existing: Track, obs: seq<Obs>, n: nat): seq<Obs>
    requires n <= |obs|
  {
    if n == 0 then []
    else Joining(existing, obs, n - 1) + (if Joins(existing, obs, n - 1) then [obs[n - 1]] else [])
  }

  /** Absorbing `obs` appends exactly the joining observations, in order,
      and registers exactly those with `index` (lines 258-265), leaving every
      other entry of the lookup as it was. */
  lemma {:induction false} AbsorbJoins(existing: Track, obs: seq<Obs>, index: nat, lookup: map<Obs, nat>)
    ensures Absorb(existing, obs, index, lookup).0.obs == existing.obs + Joining(existing, obs, |obs|)
    ensures Absorb(existing, obs, index, lookup).1 == Register(lookup, Joining(existing, obs, |obs|), index)
    decreases |obs|
  {
    if |obs| > 0 {
      var o := obs[0];
      if HasImage(existing, o.img) {
        var r := Absorb(existing, obs[1..], index, lookup);
        assert Absorb(existing, obs, index, lookup) == r;
        AbsorbJoins(existing, obs[1..], index, lookup);
        JoiningSkip(existing, obs, |obs|);
      } else {
        var grown := Track(existing.obs + [o]);
        var r := Absorb(grown, obs[1..], index, lookup[o := index]);
        assert Absorb(existing, obs, index, lookup) == r;
        AbsorbJoins(grown, obs[1..], index, lookup[o := index]);
        JoinsFirst(existing, obs, index, lookup, grown, Joining(grown, obs[1..], |obs| - 1), r);
      }
    } else {
      assert Joining(existing, obs, 0) == [];
      assert existing.obs + [] == existing.obs;
      assert Register(lookup, [], index) == lookup;
    }
  }

  /** The step of AbsorbJoins where the first observation joins. */
  lemma JoinsFirst(existing: Track, obs: seq<Obs>, index: nat, lookup: map<Obs, nat>,
                   grown: Track, rest: seq<Obs>, r: (Track, map<Obs, nat>))
    requires |obs| > 0 && !HasImage(existing, obs[0].img) && grown == Track(existing.obs + [obs[0]])
    requires rest == Joining(grown, obs[1..], |obs| - 1)
    requires r.0.obs == grown.obs + rest && r.1 == Register(lookup[obs[0] := index], rest, index)
    ensures r.0.obs == existing.obs + Joining(existing, obs, |obs|)
    ensures r.1 == Register(lookup, Joining(existing, obs, |obs|), index)
  {
    var o := obs[0];
    var joined := Joining(existing, obs, |obs|);
    assert joined == [o] + rest by {
      JoiningTake(existing, obs, |obs|);
    }
    assert r.0.obs == existing.obs + joined by {
      assert grown.obs + rest == existing.obs + ([o] + rest);
    }
    assert r.1 == Register(lookup, joined, index) by {
      RegisterCons(lookup, o, rest, index);
    }
  }

  lemma RegisterCons(lookup: map<Obs, nat>, o: Obs, rest: seq<Obs>, index: nat)
    ensures Register(lookup[o := index], rest, index) == Register(lookup, [o] + rest, index)
  {
  }

  /** A first observation whose image the track has joins nowhere, and the
      rest join as they would on their own. */
  lemma {:induction false} JoiningSkip(existing: Track, obs: seq<Obs>, n: nat)
    requires 1 <= n <= |obs| && HasImage(existing, obs[0].img)
    ensures Joining(existing, obs, n) == Joining(existing, obs[1..], n - 1)
    decreases n
  {
    if n > 1 {
      JoiningSkip(existing, obs, n - 1);
      JoinsShift(existing, obs, n - 1, existing);
    } else {
      assert !Joins(existing, obs, 0);
    }
  }

  /** A first observation whose image the track lacks joins, and the rest
      join the track grown by it. */
  lemma {:induction false} JoiningTake(existing: Track, obs: seq<Obs>, n: nat)
    requires 1 <= n <= |obs| && !HasImage(existing, obs[0].img)
    ensures Joining(existing, obs, n) == [obs[0]] + Joining(Track(existing.obs + [obs[0]]), obs[1..], n - 1)
    decreases n
  {
    var grown := Track(existing.obs + [obs[0]]);
    if n > 1 {
      JoiningTake(existing, obs, n - 1);
      JoinsShift(existing, obs, n - 1, grown);
    } else {
      assert Joins(existing, obs, 0);
    }
  }

  /** Observation `k >= 1` joins `existing` exactly when it joins `t` within
      `obs[1..]`, where `t` is `existing` grown by `obs[0]` when it lacks that
      image and `existing` itself otherwise. */
  lemma JoinsShift(existing: Track, obs: seq<Obs>, k: nat, t: Track)
    requires 1 <= k < |obs|
    requires t == (if HasImage(existing, obs[0].img) then existing else Track(existing.obs + [obs[0]]))
    ensures Joins(existing, obs, k) <==> Joins(t, obs[1..], k - 1)
  {
    var x := obs[k].img;
    assert obs[1..][k - 1] == obs[k];
    assert forall m :: 0 <= m < k - 1 ==> obs[1..][m] == obs[m + 1];
    assert HasImage(t, x) <==> HasImage(existing, x) || (!HasImage(existing, obs[0].img) && obs[0].img == x) by {
      if !HasImage(existing, obs[0].img) {
        assert forall w :: 0 <= w < |existing.obs| ==> t.obs[w] == existing.obs[w];
        assert t.obs[|existing.obs|] == obs[0];
      }
    }
    if HasImage(existing, obs[0].img) && obs[0].img == x {
      assert HasImage(existing, x);
    }
  }

  /** Facts about a track that extends `existing` followed by `o`. */
  lemma GrowFacts(existing: Track, o: Obs, t: Track)
    requires !HasImage(existing, o.img)
    requires |existing.obs| + 1 <= |t.obs| && t.obs[..|existing.obs| + 1] == existing.obs + [o]
    ensures t.obs[..|existing.obs|] == existing.obs
    ensures o in t.obs && HasImage(t, o.img)
    ensures DistinctImages(existing) ==> DistinctImages(Track(existing.obs + [o]))
  {
    var n := |existing.obs|;
    assert t.obs[..n] == t.obs[..n + 1][..n];
    assert t.obs[n] == t.obs[..n + 1][n] == o;
  }

  /** One iteration of the pass over track `t`: a track none of whose
      observations is registered is appended and registered; otherwise it is
      merged into the track its first registered observation points at. */
  function Step(st: PassState, t: Track): (r: PassState)
    requires LookupValid(st)
    ensures LookupValid(r)
    ensures |r.tracks| == |st.tracks| + (if FirstFound(t.obs, st.lookup).None? then 1 else 0)
    ensures FirstFound(t.obs, st.lookup).None? ==>
      r.tracks == st.tracks + [t] && r.lookup.Keys == st.lookup.Keys + ObsSet(t)
    ensures FirstFound(t.obs, st.lookup).Some? ==>
      var index := FirstFound(t.obs, st.lookup).value;
      && index < |st.tracks|
      && r.tracks == st.tracks[index := Absorb(st.tracks[index], t.obs, index, st.lookup).0]
      && r.lookup == Absorb(st.tracks[index], t.obs, index, st.lookup).1
    ensures AllDistinctImages(st.tracks) && DistinctImages(t) ==> AllDistinctImages(r.tracks)
    ensures AllObs(r.tracks) <= AllObs(st.tracks) + ObsSet(t)
    ensures Grows(st.tracks, r.tracks)
    ensures LandsIn(t, r.tracks)
  {
    match FirstFound(t.obs, st.lookup)
    case None =>
      AppendFacts(st, t);
      AppendGrows(st.tracks, t, st.tracks + [t]);
      PassState(st.tracks + [t], Register(st.lookup, t.obs, |st.tracks|))
    case Some(index) =>
      var ab := Absorb(st.tracks[index], t.obs, index, st.lookup);
      MergeFacts(st, t, index, ab);
      MergeGrows(st.tracks, t, index, ab.0);
      PassState(st.tracks[index := ab.0], ab.1)
  }

  /** The append branch keeps every track and adds one covering `t`. */
  lemma AppendGrows(ts: seq<Track>, t: Track, rs: seq<Track>)
    requires rs == ts + [t]
    ensures Grows(ts, rs)
    ensures LandsIn(t, rs)
  {
    forall b | 0 <= b < |ts|
      ensures Extends(ts[b], rs[b])
    {
      assert rs[b] == ts[b];
      assert ts[b].obs[..|ts[b].obs|] == ts[b].obs;
    }
    forall k | 0 <= k < |t.obs|
      ensures HasImage(rs[|ts|], t.obs[k].img)
    {
      assert rs[|ts|].obs[k] == t.obs[k];
    }
    assert CoversImages(rs[|ts|], t);
  }

  /** The merge branch grows its target at the end, to cover `t`, and keeps
      every other track. */
  lemma MergeGrows(ts: seq<Track>, t: Track, index: nat, u: Track)
    requires index < |ts| && Extends(ts[index], u) && CoversImages(u, t)
    ensures Grows(ts, ts[index := u])
    ensures LandsIn(t, ts[index := u])
  {
    forall b | 0 <= b < |ts| && b != index
      ensures Extends(ts[b], ts[index := u][b])
    {
      assert ts[b].obs[..|ts[b].obs|] == ts[b].obs;
    }
  }

  lemma AppendFacts(st: PassState, t: Track)
    requires LookupValid(st)
    ensures var r := PassState(st.tracks + [t], Register(st.lookup, t.obs, |st.tracks|));
      && LookupValid(r)
      && r.lookup.Keys == st.lookup.Keys + ObsSet(t)
      && (AllDistinctImages(st.tracks) && DistinctImages(t) ==> AllDistinctImages(r.tracks))
      && AllObs(r.tracks) == AllObs(st.tracks) + ObsSet(t)
  {
    var r := PassState(st.tracks + [t], Register(st.lookup, t.obs, |st.tracks|));
    assert r.tracks[..|st.tracks|] == st.tracks;
    assert forall a :: 0 <= a < |st.tracks| ==> r.tracks[a] == st.tracks[a];
  }

  lemma MergeFacts(st: PassState, t: Track, index: nat, ab: (Track, map<Obs, nat>))
    requires LookupValid(st) && index < |st.tracks|
    requires ab == Absorb(st.tracks[index], t.obs, index, st.lookup)
    ensures var r := PassState(st.tracks[index := ab.0], ab.1);
      && LookupValid(r)
      && (AllDistinctImages(st.tracks) ==> AllDistinctImages(r.tracks))
      && AllObs(r.tracks) <= AllObs(st.tracks) + ObsSet(t)
  {
    var r := PassState(st.tracks[index := ab.0], ab.1);
    var e := st.tracks[index];
    forall o | o in r.lookup
      ensures r.lookup[o] < |r.tracks| && o in r.tracks[r.lookup[o]].obs
    {
      if o in st.lookup && r.lookup[o] == st.lookup[o] {
        var v := st.lookup[o];
        if v == index {
          assert o in ab.0.obs[..|e.obs|];
        }
      }
    }
    AllObsReplace(st.tracks, index, ab.0);
    forall o | o in ObsSet(ab.0)
      ensures o in AllObs(st.tracks) + ObsSet(t)
    {
      if o in e.obs {
        AllObsMember(st.tracks, o);
      }
    }
  }

  /** Replacing one track changes the observation set by at most that track's. */
  lemma AllObsReplace(ts: seq<Track>, index: nat, u: Track)
    requires index < |ts|
    ensures AllObs(ts[index := u]) <= AllObs(ts) + ObsSet(u)
  {
    forall o | o in AllObs(ts[index := u])
      ensures o in AllObs(ts) + ObsSet(u)
    {
      AllObsMember(ts[index := u], o);
      var a :| 0 <= a < |ts| && o in ts[index := u][a].obs;
      if a != index {
        AllObsMember(ts, o);
      }
    }
  }

  /** One full pass over the track list, in list order. */
  function Pass(ts: seq<Track>): (r: PassState)
    ensures LookupValid(r)
    ensures |r.tracks| <= |ts|
    ensures |r.tracks| == |ts| <==> PairwiseDisjoint(ts)
    ensures |r.tracks| == |ts| ==> r.tracks == ts && r.lookup.Keys == AllObs(ts)
    ensures AllDistinctImages(ts) ==> AllDistinctImages(r.tracks)
    ensures AllObs(r.tracks) <= AllObs(ts)
    ensures Lands(ts, r.tracks)
    decreases |ts|
  {
    if |ts| == 0 then PassState([], map[])
    else
      var n := |ts| - 1;
      var st := Pass(ts[..n]);
      PassSnoc(ts, st);
      var r := Step(st, ts[n]);
      LandsSnoc(ts, st.tracks, r.tracks);
      r
  }

  /** A grown track still observes every image it did. */
  lemma CoversExtends(t: Track, u: Track, v: Track)
    requires CoversImages(u, t) && Extends(u, v)
    ensures CoversImages(v, t)
  {
    forall k | 0 <= k < |t.obs|
      ensures HasImage(v, t.obs[k].img)
    {
      var j :| 0 <= j < |u.obs| && u.obs[j].img == t.obs[k].img;
      assert v.obs[j] == v.obs[..|u.obs|][j] == u.obs[j];
    }
  }

  /** Covering is transitive. */
  lemma CoversTrans(t: Track, m: Track, u: Track)
    requires CoversImages(m, t) && CoversImages(u, m)
    ensures CoversImages(u, t)
  {
    forall k | 0 <= k < |t.obs|
      ensures HasImage(u, t.obs[k].img)
    {
      var j :| 0 <= j < |m.obs| && m.obs[j].img == t.obs[k].img;
      assert HasImage(u, m.obs[j].img);
    }
  }

  /** The tracks of a prefix still land after the step over the last track,
      and the last track lands where the step put it. */
  lemma LandsSnoc(ts: seq<Track>, prev: seq<Track>, rs: seq<Track>)
    requires |ts| > 0 && Lands(ts[..|ts| - 1], prev) && Grows(prev, rs)
    requires LandsIn(ts[|ts| - 1], rs)
    ensures Lands(ts, rs)
  {
    var n := |ts| - 1;
    forall a | 0 <= a < |ts|
      ensures LandsIn(ts[a], rs)
    {
      if a < n {
        assert ts[..n][a] == ts[a] && LandsIn(ts[..n][a], prev);
        var b :| 0 <= b < |prev| && CoversImages(prev[b], ts[a]);
        CoversExtends(ts[a], prev[b], rs[b]);
      }
    }
  }

  /** Landing is transitive. */
  lemma LandsTrans(ts: seq<Track>, ms: seq<Track>, rs: seq<Track>)
    requires Lands(ts, ms) && Lands(ms, rs)
    ensures Lands(ts, rs)
  {
    forall a | 0 <= a < |ts|
      ensures LandsIn(ts[a], rs)
    {
      assert LandsIn(ts[a], ms);
      var b :| 0 <= b < |ms| && CoversImages(ms[b], ts[a]);
      assert LandsIn(ms[b], rs);
      var c :| 0 <= c < |rs| && CoversImages(rs[c], ms[b]);
      CoversTrans(ts[a], ms[b], rs[c]);
    }
  }

  /** The facts of a pass over `ts` from those of the pass over its prefix. */
  lemma PassSnoc(ts: seq<Track>, st: PassState)
    requires |ts| > 0
    requires var n := |ts| - 1;
      && LookupValid(st)
      && |st.tracks| <= n
      && (|st.tracks| == n <==> PairwiseDisjoint(ts[..n]))
      && (|st.tracks| == n ==> st.tracks == ts[..n] && st.lookup.Keys == AllObs(ts[..n]))
      && (AllDistinctImages(ts[..n]) ==> AllDistinctImages(st.tracks))
      && AllObs(st.tracks) <= AllObs(ts[..n])
    ensures var r := Step(st, ts[|ts| - 1]);
      && |r.tracks| <= |ts|
      && (|r.tracks| == |ts| <==> PairwiseDisjoint(ts))
      && (|r.tracks| == |ts| ==> r.tracks == ts && r.lookup.Keys == AllObs(ts))
      && (AllDistinctImages(ts) ==> AllDistinctImages(r.tracks))
      && AllObs(r.tracks) <= AllObs(ts)
  {
    var n := |ts| - 1;
    assert AllObs(ts) == AllObs(ts[..n]) + ObsSet(ts[n]);
    PassSnocLength(ts, st);
    AllDistinctPrefix(ts);
  }

  lemma AllDistinctPrefix(ts: seq<Track>)
    requires |ts| > 0
    ensures AllDistinctImages(ts) ==> AllDistinctImages(ts[..|ts| - 1]) && DistinctImages(ts[|ts| - 1])
  {
    assert forall a :: 0 <= a < |ts| - 1 ==> ts[..|ts| - 1][a] == ts[a];
  }

  lemma PassSnocLength(ts: seq<Track>, st: PassState)
    requires |ts| > 0
    requires var n := |ts| - 1;
      && LookupValid(st)
      && |st.tracks| <= n
      && (|st.tracks| == n <==> PairwiseDisjoint(ts[..n]))
      && (|st.tracks| == n ==> st.tracks == ts[..n] && st.lookup.Keys == AllObs(ts[..n]))
      && AllObs(st.tracks) <= AllObs(ts[..n])
    ensures var r := Step(st, ts[|ts| - 1]);
      && |r.tracks| <= |ts|
      && (|r.tracks| == |ts| <==> PairwiseDisjoint(ts))
      && (|r.tracks| == |ts| ==> r.tracks == ts && r.lookup.Keys == AllObs(ts[..|ts| - 1]) + ObsSet(ts[|ts| - 1]))
  {
    var n := |ts| - 1;
    DisjointSnoc(ts);
    FoundIffShared(ts[n], st.lookup);
    assert ts[..n] + [ts[n]] == ts;
    if FirstFound(ts[n].obs, st.lookup).Some? {
      LookupKeysInTracks(st);
      assert !(st.lookup.Keys !! ObsSet(ts[n]));
    }
  }

  /** Registered observations all belong to tracks of the new list. */
  lemma LookupKeysInTracks(st: PassState)
    requires LookupValid(st)
    ensures st.lookup.Keys <= AllObs(st.tracks)
  {
    forall o | o in st.lookup
      ensures o in AllObs(st.tracks)
    {
      AllObsMember(st.tracks, o);
    }
  }

  /** A track is found in the lookup exactly when it shares an observation
      with the registered ones. */
  lemma FoundIffShared(t: Track, lookup: map<Obs, nat>)
    ensures FirstFound(t.obs, lookup).None? <==> lookup.Keys !! ObsSet(t)
  {
  }

  lemma DisjointSnoc(ts: seq<Track>)
    requires |ts| > 0
    ensures var n := |ts| - 1;
      PairwiseDisjoint(ts) <==> PairwiseDisjoint(ts[..n]) && AllObs(ts[..n]) !! ObsSet(ts[n])
  {
    var n := |ts| - 1;
    assert forall a :: 0 <= a < n ==> ts[..n][a] == ts[a];
    forall o
      ensures o in AllObs(ts[..n]) <==> exists a :: 0 <= a < n && o in ts[a].obs
    {
      AllObsMember(ts[..n], o);
    }
    if AllObs(ts[..n]) !! ObsSet(ts[n]) {
      forall a | 0 <= a < n
        ensures ObsSet(ts[a]) !! ObsSet(ts[n])
      {
        forall o | o in ObsSet(ts[a])
          ensures o !in ObsSet(ts[n])
        {
          assert o in ts[a].obs;
        }
      }
    }
  }

  /** The passes of link_matches, repeated until a pass leaves the number of
      tracks unchanged; each other pass shortens the list, which bounds the
      loop. The result is a fixed point of the pass: no two tracks share an
      observation. */
  function Link(ts: seq<Track>): (r: seq<Track>)
    ensures |r| <= |ts|
    ensures PairwiseDisjoint(r)
    ensures Pass(r).tracks == r
    ensures AllDistinctImages(ts) ==> AllDistinctImages(r)
    ensures AllObs(r) <= AllObs(ts)
    decreases |ts|
  {
    var next := Pass(ts).tracks;
    if |next| == |ts| then ts else Link(next)
  }

  /** Linking throws no track away: every input track ends up in one output
      track that observes each of its images. */
  lemma {:induction false} LinkLands(ts: seq<Track>)
    ensures Lands(ts, Link(ts))
    decreases |ts|
  {
    var next := Pass(ts).tracks;
    if |next| != |ts| {
      LinkLands(next);
      LandsTrans(ts, next, Link(next));
    }
  }

  /** So linking a non-empty list leaves a non-empty list. */
  lemma LinkNonEmpty(ts: seq<Track>)
    ensures |ts| > 0 ==> |Link(ts)| > 0
  {
    if |ts| > 0 {
      LinkLands(ts);
      assert LandsIn(ts[0], Link(ts));
    }
  }

  /** Linking leaves a list unchanged exactly when its tracks are already
      pairwise disjoint. */
  lemma LinkFixedIffDisjoint(ts: seq<Track>)
    ensures Link(ts) == ts <==> PairwiseDisjoint(ts)
  {
  }

  /** Once a pass leaves no two tracks sharing an observation, linking
      stops after at most one more pass: the result is that pass's tracks. */
  lemma SettlesAfterOnePass(ts: seq<Track>)
    requires PairwiseDisjoint(Pass(ts).tracks)
    ensures Link(ts) == Pass(ts).tracks
  {
    var next := Pass(ts).tracks;
    if |next| != |ts| {
      LinkFixedIffDisjoint(next);
    }
  }

  /** The observation exists in the project: `proj.image_list[img].kp_list[kp]`
      does not raise. */
  predicate ObsInRange(p: Project, o: Obs)
  {
    o.img < |p| && o.kp < |p[o.img].kps|
  }

  /** `u` is track `t` with each keypoint index replaced by its coordinate. */
  predicate Materialized(p: Project, t: Track, u: UvTrack)
  {
    && |u.obs| == |t.obs|
    && forall k :: 0 <= k < |t.obs| ==>
         ObsInRange(p, t.obs[k]) && u.obs[k] == UvObs(t.obs[k].img, p[t.obs[k].img].kps[t.obs[k].kp].pt)
  }

  function MaterializeTrack(p: Project, t: Track): (r: Result<UvTrack>)
    ensures r.Ok? <==> forall k :: 0 <= k < |t.obs| ==> ObsInRange(p, t.obs[k])
    ensures r.Ok? ==> Materialized(p, t, r.value)
    decreases |t.obs|
  {
    if |t.obs| == 0 then Ok(UvTrack([]))
    else
      var o := t.obs[0];
      var tail := Track(t.obs[1..]);
      assert forall k :: 1 <= k < |t.obs| ==> tail.obs[k - 1] == t.obs[k];
      if o.img >= |p| then Err(ImageIndexOutOfRange(o.img))
      else if o.kp >= |p[o.img].kps| then Err(KeypointIndexOutOfRange(o.img, o.kp))
      else
        match MaterializeTrack(p, tail)
        case Err(e) => Err(e)
        case Ok(u) =>
          var r := UvTrack([UvObs(o.img, p[o.img].kps[o.kp].pt)] + u.obs);
          assert forall k :: 1 <= k < |t.obs| ==> r.obs[k] == u.obs[k - 1];
          Ok(r)
  }

  /** Replaces keypoint indices by coordinates in every track, in order; an
      observation outside the project aborts. */
  function MaterializeAll(p: Project, ts: seq<Track>): (r: Result<seq<UvTrack>>)
    ensures r.Ok? <==> forall a, k :: 0 <= a < |ts| && 0 <= k < |ts[a].obs| ==> ObsInRange(p, ts[a].obs[k])
    ensures r.Ok? ==> |r.value| == |ts| && forall a :: 0 <= a < |ts| ==> Materialized(p, ts[a], r.value[a])
    decreases |ts|
  {
    if |ts| == 0 then Ok([])
    else
      assert forall a :: 1 <= a < |ts| ==> ts[1..][a - 1] == ts[a];
      match MaterializeTrack(p, ts[0])
      case Err(e) => Err(e)
      case Ok(u) =>
        match MaterializeAll(p, ts[1..])
        case Err(e) => Err(e)
        case Ok(us) => Ok([u] + us)
  }

  /** Every observation of every track indexes a real keypoint. */
  predicate TracksInRange(p: Project, ts: seq<Track>)
  {
    forall a, k :: 0 <= a < |ts| && 0 <= k < |ts[a].obs| ==> ObsInRange(p, ts[a].obs[k])
  }

  /** `us` is the tracks of `ts` with coordinates, stably sorted longest
      first: sorted, a permutation, and in input order per length. */
  ghost predicate SortedMaterialized(p: Project, ts: seq<Track>, us: seq<UvTrack>)
    requires MaterializeAll(p, ts).Ok?
  {
    && |us| == |ts|
    && LongestFirst(us)
    && multiset(us) == multiset(MaterializeAll(p, ts).value)
    && forall n :: WithLength(us, n) == WithLength(MaterializeAll(p, ts).value, n)
  }

  /** The body of link_matches after linking: replace keypoint indices by
      coordinates, then sort stably by observation count, longest first. */
  function MaterializeSorted(p: Project, ts: seq<Track>): (r: Result<seq<UvTrack>>)
    ensures r.Ok? <==> TracksInRange(p, ts)
    ensures r.Ok? ==> |r.value| == |ts| && SortedMaterialized(p, ts, r.value)
  {
    match MaterializeAll(p, ts)
    case Err(e) => Err(e)
    case Ok(us) =>
      var r := SortLongestFirst(us);
      SortedLength(us, r);
      Ok(r)
  }

  lemma SortedLength(us: seq<UvTrack>, r: seq<UvTrack>)
    requires multiset(r) == multiset(us)
    ensures |r| == |us|
  {
    assert |multiset(r)| == |multiset(us)|;
  }

  /** link_matches as written: link the proto-tracks to a fixed point and
      materialize and sort the result. The closing log line (line 304) then
      divides by the number of tracks with no guard, so an empty list of
      proto-tracks raises instead of yielding no tracks. */
  function LinkMatches(p: Project, protos: seq<Track>): (r: Result<seq<UvTrack>>)
    ensures r.Ok? <==> TracksInRange(p, Link(protos)) && |protos| > 0
    ensures protos == [] ==> r == Err(NoTracksToAverage)
    ensures r.Ok? ==> |r.value| <= |protos| && SortedMaterialized(p, Link(protos), r.value)
  {
    match MaterializeSorted(p, Link(protos))
    case Err(e) => Err(e)
    case Ok(us) =>
      if |us| == 0 then
        LinkNonEmpty(protos);
        Err(NoTracksToAverage)
      else Ok(us)
  }

  /** link_matches with the closing average guarded by a non-empty check, as
      make_match_structure guards its own (line 221): the same result, but no
      proto-tracks link to no tracks. */
  function LinkMatchesGuarded(p: Project, protos: seq<Track>): (r: Result<seq<UvTrack>>)
    ensures r.Ok? <==> TracksInRange(p, Link(protos))
    ensures r.Ok? ==> |r.value| <= |protos| && SortedMaterialized(p, Link(protos), r.value)
  {
    MaterializeSorted(p, Link(protos))
  }

  /** The guard changes nothing but the empty case: wherever the source does
      not divide by zero, both definitions agree. */
  lemma GuardedAgrees(p: Project, protos: seq<Track>)
    ensures protos != [] ==> LinkMatchesGuarded(p, protos) == LinkMatches(p, protos)
    ensures protos == [] ==> LinkMatches(p, protos).Err? && LinkMatchesGuarded(p, protos) == Ok([])
  {
    LinkNonEmpty(protos);
    if protos == [] {
      var ts := Link(protos);
      assert TracksInRange(p, ts);
      assert |LinkMatchesGuarded(p, protos).value| == 0;
    }
  }
}

=== FILE: match_structure.dfy ===
/** Construction of the initial two-observation proto-tracks
    (make_match_structure). */
module MatchStructure {
  import opened Types

  /** Some list of `mls` names image `j` as its peer and holds pair `pr`. */
  predicate ListsHold(p: Project, mls: seq<MatchList>, j: nat, pr: Pair)
  {
    exists k :: 0 <= k < |mls| && FindIndexByName(p, mls[k].peer) == Some(j) && pr in mls[k].pairs
  }

  /** Image `i` holds pair `pr` in a list whose peer is image `j`. */
  predicate Matched(p: Project, i: nat, j: nat, pr: Pair)
  {
    && i < |p|
    && ListsHold(p, p[i].matches, j, pr)
  }

  /** `t` is the proto-track of a pair that an image holds against a later image. */
  predicate IsProtoOf(p: Project, t: Track)
  {
    && |t.obs| == 2
    && t.obs[0].img < t.obs[1].img
    && Matched(p, t.obs[0].img, t.obs[1].img, Pair(t.obs[0].kp, t.obs[1].kp))
  }

  function ProtoTrack(i: nat, j: nat, pr: Pair): Track
  {
    Track([Obs(i, pr.idx1), Obs(j, pr.idx2)])
  }

  function TracksOfPairs(i: nat, j: nat, pairs: seq<Pair>): (r: seq<Track>)
    ensures |r| == |pairs|
    ensures forall t :: t in r <==> exists pr :: pr in pairs && t == ProtoTrack(i, j, pr)
    decreases |pairs|
  {
    if |pairs| == 0 then []
    else [ProtoTrack(i, j, pairs[0])] + TracksOfPairs(i, j, pairs[1..])
  }

  /** The number of pairs image `i` holds against known later peers. */
  function PairsAbove(p: Project, i: nat, mls: seq<MatchList>): nat
  {
    if |mls| == 0 then 0
    else
      var n := match FindIndexByName(p, mls[0].peer)
        case Some(j) => if j > i then |mls[0].pairs| else 0
        case None => 0;
      n + PairsAbove(p, i, mls[1..])
  }

  lemma ListsHoldCons(p: Project, mls: seq<MatchList>, j: nat, pr: Pair)
    requires |mls| > 0
    ensures ListsHold(p, mls, j, pr) <==>
      (FindIndexByName(p, mls[0].peer) == Some(j) && pr in mls[0].pairs) || ListsHold(p, mls[1..], j, pr)
  {
    if ListsHold(p, mls[1..], j, pr) {
      var k :| 0 <= k < |mls[1..]| && FindIndexByName(p, mls[1..][k].peer) == Some(j) && pr in mls[1..][k].pairs;
      assert mls[k + 1] == mls[1..][k];
    }
    if ListsHold(p, mls, j, pr) {
      var k :| 0 <= k < |mls| && FindIndexByName(p, mls[k].peer) == Some(j) && pr in mls[k].pairs;
      if k > 0 {
        assert mls[1..][k - 1] == mls[k];
      }
    }
  }

  /** The proto-tracks of the first list of image `i`, if its peer is later. */
  function TracksOfList(p: Project, i: nat, ml: MatchList): (r: seq<Track>)
    ensures |r| == PairsAbove(p, i, [ml])
    ensures forall t :: t in r <==>
      && |t.obs| == 2 && t.obs[0].img == i && i < t.obs[1].img
      && FindIndexByName(p, ml.peer) == Some(t.obs[1].img) && Pair(t.obs[0].kp, t.obs[1].kp) in ml.pairs
  {
    match FindIndexByName(p, ml.peer)
    case Some(j) => if j > i then TracksOfPairs(i, j, ml.pairs) else []
    case None => []
  }

  function TracksOfLists(p: Project, i: nat, mls: seq<MatchList>): (r: seq<Track>)
    ensures |r| == PairsAbove(p, i, mls)
    ensures forall t :: t in r <==>
      && |t.obs| == 2 && t.obs[0].img == i && i < t.obs[1].img
      && ListsHold(p, mls, t.obs[1].img, Pair(t.obs[0].kp, t.obs[1].kp))
    decreases |mls|
  {
    if |mls| == 0 then []
    else
      var head := TracksOfList(p, i, mls[0]);
      var rest := TracksOfLists(p, i, mls[1..]);
      forall t: Track | |t.obs| == 2
        ensures ListsHold(p, mls, t.obs[1].img, Pair(t.obs[0].kp, t.obs[1].kp)) <==>
          (FindIndexByName(p, mls[0].peer) == Some(t.obs[1].img) && Pair(t.obs[0].kp, t.obs[1].kp) in mls[0].pairs)
          || ListsHold(p, mls[1..], t.obs[1].img, Pair(t.obs[0].kp, t.obs[1].kp))
      {
        ListsHoldCons(p, mls, t.obs[1].img, Pair(t.obs[0].kp, t.obs[1].kp));
      }
      head + rest
  }

  function PairsAboveOfImages(p: Project, n: nat): nat
    requires n <= |p|
  {
    if n == 0 then 0 else PairsAboveOfImages(p, n - 1) + PairsAbove(p, n - 1, p[n - 1].matches)
  }

  /** Proto-tracks from images below `n` are those from images below
      `n - 1` followed by those from image `n - 1`. */
  lemma ProtoOfImagesSnoc(p: Project, n: nat, prefix: seq<Track>, last: seq<Track>)
    requires 0 < n <= |p|
    requires forall t :: t in prefix <==> IsProtoOf(p, t) && t.obs[0].img < n - 1
    requires forall t :: t in last <==>
      && |t.obs| == 2 && t.obs[0].img == n - 1 && n - 1 < t.obs[1].img
      && ListsHold(p, p[n - 1].matches, t.obs[1].img, Pair(t.obs[0].kp, t.obs[1].kp))
    ensures forall t :: t in prefix + last <==> IsProtoOf(p, t) && t.obs[0].img < n
  {
    forall t | t in prefix + last
      ensures IsProtoOf(p, t) && t.obs[0].img < n
    {
      if t !in prefix {
        assert t in last;
      }
    }
    forall t | IsProtoOf(p, t) && t.obs[0].img < n
      ensures t in prefix + last
    {
      if t.obs[0].img == n - 1 {
        assert t in last;
      } else {
        assert t in prefix;
      }
    }
  }

  function TracksOfImages(p: Project, n: nat): (r: seq<Track>)
    requires n <= |p|
    ensures |r| == PairsAboveOfImages(p, n)
    ensures forall t :: t in r <==> IsProtoOf(p, t) && t.obs[0].img < n
    decreases n
  {
    if n == 0 then []
    else
      var prefix := TracksOfImages(p, n - 1);
      var last := TracksOfLists(p, n - 1, p[n - 1].matches);
      ProtoOfImagesSnoc(p, n, prefix, last);
      prefix + last
  }

  /** Total number of observations over a track list. */
  function ObsTotal(ts: seq<Track>): nat
  {
    if |ts| == 0 then 0 else |ts[0].obs| + ObsTotal(ts[1..])
  }

  /** make_match_structure: one proto-track per pair held against a known
      later image, in image, list and pair order; exactly the tracks of such
      pairs, each with two observations of distinct in-range images. */
  function MakeMatchStructure(p: Project): (r: seq<Track>)
    ensures |r| == PairsAboveOfImages(p, |p|)
    ensures forall t :: t in r <==> IsProtoOf(p, t)
    ensures forall t :: t in r ==> |t.obs| == 2 && t.obs[0].img < t.obs[1].img < |p| && DistinctImages(t)
  {
    var r := TracksOfImages(p, |p|);
    forall t | t in r
      ensures t.obs[1].img < |p|
    {
      var i, j := t.obs[0].img, t.obs[1].img;
      var k :| 0 <= k < |p[i].matches| && FindIndexByName(p, p[i].matches[k].peer) == Some(j)
        && Pair(t.obs[0].kp, t.obs[1].kp) in p[i].matches[k].pairs;
    }
    r
  }

  /** List `ml` of image `i` names a known later peer and holds some pair. */
  predicate ListAbove(p: Project, i: nat, ml: MatchList)
  {
    match FindIndexByName(p, ml.peer)
    case None => false
    case Some(j) => i < j && |ml.pairs| > 0
  }

  /** Some image holds a pair against a known later peer. */
  predicate HasProtoPair(p: Project)
  {
    exists a, k :: 0 <= a < |p| && 0 <= k < |p[a].matches| && ListAbove(p, a, p[a].matches[k])
  }

  /** make_match_structure emits something exactly when some image holds a
      pair against a known later peer. */
  lemma ProtosExist(p: Project)
    ensures MakeMatchStructure(p) != [] <==> HasProtoPair(p)
  {
    var r := MakeMatchStructure(p);
    if HasProtoPair(p) {
      var a, k :| 0 <= a < |p| && 0 <= k < |p[a].matches| && ListAbove(p, a, p[a].matches[k]);
      var ml := p[a].matches[k];
      var j := FindIndexByName(p, ml.peer).value;
      assert ml.pairs[0] in ml.pairs;
      assert ListsHold(p, p[a].matches, j, ml.pairs[0]);
      assert IsProtoOf(p, ProtoTrack(a, j, ml.pairs[0]));
    }
    if r != [] {
      var t := r[0];
      assert t in r;
      var i, j := t.obs[0].img, t.obs[1].img;
      var k :| 0 <= k < |p[i].matches| && FindIndexByName(p, p[i].matches[k].peer) == Some(j)
        && Pair(t.obs[0].kp, t.obs[1].kp) in p[i].matches[k].pairs;
      assert ListAbove(p, i, p[i].matches[k]);
    }
  }

  /** Every proto-track has two observations, so the average per track is 2. */
  lemma {:induction false} ProtoAverage(ts: seq<Track>)
    requires forall t :: t in ts ==> |t.obs| == 2
    ensures ObsTotal(ts) == 2 * |ts|
    decreases |ts|
  {
    if |ts| > 0 {
      assert ts[0] in ts;
      assert forall t :: t in ts[1..] ==> t in ts;
      ProtoAverage(ts[1..]);
    }
  }

  /** The proto-tracks of a project total two observations each, so the
      average logged at line 223 is 2.0. */
  lemma StructureAverage(p: Project)
    ensures ObsTotal(MakeMatchStructure(p)) == 2 * |MakeMatchStructure(p)|
  {
    ProtoAverage(MakeMatchStructure(p));
  }
}

=== FILE: merge.dfy ===
/** Keypoint deduplication and match rewriting (merge_duplicates): every image
    gets a table from coordinate to the first used keypoint there, and every
    match pair is rewritten to those canonical indices. */
module KeypointMerge {
  import opened Types

  /** Keypoint `c` is used and no earlier used keypoint has its coordinate. */
  predicate IsCanonical(kps: seq<Keypoint>, c: int)
  {
    && 0 <= c < |kps|
    && kps[c].used
    && forall j :: 0 <= j < c ==> !(kps[j].used && kps[j].pt == kps[c].pt)
  }

  /** Some used keypoint shares the coordinate of keypoint `i`. */
  predicate Resolves(kps: seq<Keypoint>, i: int)
  {
    && 0 <= i < |kps|
    && exists j :: 0 <= j < |kps| && kps[j].used && kps[j].pt == kps[i].pt
  }

  /** `c` is the canonical keypoint standing in for keypoint `i`. */
  predicate CanonicalOf(kps: seq<Keypoint>, i: int, c: int)
  {
    0 <= i < |kps| && IsCanonical(kps, c) && kps[c].pt == kps[i].pt
  }

  lemma CanonicalUnique(kps: seq<Keypoint>, a: int, b: int)
    requires IsCanonical(kps, a) && IsCanonical(kps, b)
    requires kps[a].pt == kps[b].pt
    ensures a == b
  {
  }

  /** The remap table of one image: each coordinate of a used keypoint maps to
      the lowest used index at that coordinate; nothing else is a key. */
  function BuildRemap(kps: seq<Keypoint>): (r: map<Coord, nat>)
    ensures forall c :: c in r <==> exists i :: 0 <= i < |kps| && kps[i].used && kps[i].pt == c
    ensures forall c :: c in r ==> IsCanonical(kps, r[c]) && kps[r[c]].pt == c
    decreases |kps|
  {
    if |kps| == 0 then map[]
    else
      var n := |kps| - 1;
      var m := BuildRemap(kps[..n]);
      assert forall i :: 0 <= i < n ==> kps[..n][i] == kps[i];
      if kps[n].used && kps[n].pt !in m then m[kps[n].pt := n] else m
  }

  /** The remap table of an image is the one built from its keypoints. */
  predicate RemapBuilt(img: Image)
  {
    img.remap == BuildRemap(img.kps)
  }

  /** The table maps the coordinate of every canonical keypoint back to it. */
  lemma RemapOfCanonical(kps: seq<Keypoint>, c: int)
    requires IsCanonical(kps, c)
    ensures kps[c].pt in BuildRemap(kps) && BuildRemap(kps)[kps[c].pt] == c
  {
    var r := BuildRemap(kps);
    assert kps[c].pt in r;
    CanonicalUnique(kps, r[kps[c].pt], c);
  }

  /** Rewrites one pair of image `a` (index `ai`) against peer `b` (index
      `bi`), failing as the source does on a bad index or a missing key. */
  function RewritePair(a: Image, ai: nat, b: Image, bi: nat, pair: Pair): (r: Result<Pair>)
    requires RemapBuilt(a) && RemapBuilt(b)
    ensures r.Ok? <==> Resolves(a.kps, pair.idx1) && Resolves(b.kps, pair.idx2)
    ensures r.Ok? ==> CanonicalOf(a.kps, pair.idx1, r.value.idx1)
    ensures r.Ok? ==> CanonicalOf(b.kps, pair.idx2, r.value.idx2)
  {
    if pair.idx1 >= |a.kps| then Err(KeypointIndexOutOfRange(ai, pair.idx1))
    else if pair.idx2 >= |b.kps| then Err(KeypointIndexOutOfRange(bi, pair.idx2))
    else
      var key1 := a.kps[pair.idx1].pt;
      var key2 := b.kps[pair.idx2].pt;
      if key1 !in a.remap then Err(KeyNotInRemap(ai, key1))
      else if key2 !in b.remap then Err(KeyNotInRemap(bi, key2))
      else Ok(Pair(a.remap[key1], b.remap[key2]))
  }

  /** Both indices of every pair resolve in their images. */
  predicate AllResolve(a: Image, b: Image, pairs: seq<Pair>)
  {
    forall k :: 0 <= k < |pairs| ==> Resolves(a.kps, pairs[k].idx1) && Resolves(b.kps, pairs[k].idx2)
  }

  /** Every pair of `out` is the canonical rewrite of the pair at the same
      position of `pairs`. */
  predicate PairsCanonicalized(a: Image, b: Image, pairs: seq<Pair>, out: seq<Pair>)
  {
    && |out| == |pairs|
    && forall k :: 0 <= k < |pairs| ==>
         CanonicalOf(a.kps, pairs[k].idx1, out[k].idx1) && CanonicalOf(b.kps, pairs[k].idx2, out[k].idx2)
  }

  lemma AllResolveCons(a: Image, b: Image, pairs: seq<Pair>)
    requires |pairs| > 0
    ensures AllResolve(a, b, pairs) <==>
      Resolves(a.kps, pairs[0].idx1) && Resolves(b.kps, pairs[0].idx2) && AllResolve(a, b, pairs[1..])
  {
    assert forall k :: 1 <= k < |pairs| ==> pairs[1..][k - 1] == pairs[k];
  }

  lemma CanonicalizedCons(a: Image, b: Image, pairs: seq<Pair>, q: Pair, rest: seq<Pair>)
    requires |pairs| > 0
    requires CanonicalOf(a.kps, pairs[0].idx1, q.idx1) && CanonicalOf(b.kps, pairs[0].idx2, q.idx2)
    requires PairsCanonicalized(a, b, pairs[1..], rest)
    ensures PairsCanonicalized(a, b, pairs, [q] + rest)
  {
    assert forall k :: 1 <= k < |pairs| ==> pairs[1..][k - 1] == pairs[k] && ([q] + rest)[k] == rest[k - 1];
  }

  /** Rewrites a whole match list in order; the first failing pair aborts. */
  function RewriteList(a: Image, ai: nat, b: Image, bi: nat, pairs: seq<Pair>): (r: Result<seq<Pair>>)
    requires RemapBuilt(a) && RemapBuilt(b)
    ensures r.Ok? <==> AllResolve(a, b, pairs)
    ensures r.Ok? ==> PairsCanonicalized(a, b, pairs, r.value)
    decreases |pairs|
  {
    if |pairs| == 0 then Ok([])
    else
      AllResolveCons(a, b, pairs);
      match RewritePair(a, ai, b, bi, pairs[0])
      case Err(e) => Err(e)
      case Ok(q) =>
        match RewriteList(a, ai, b, bi, pairs[1..])
        case Err(e) => Err(e)
        case Ok(rest) =>
          CanonicalizedCons(a, b, pairs, q, rest);
          Ok([q] + rest)
  }

  /** Pass one of the source over all images: fill in every remap table. */
  function WithRemaps(p: Project): (q: Project)
    ensures |q| == |p|
    ensures forall i :: 0 <= i < |p| ==>
      q[i] == p[i].(remap := BuildRemap(p[i].kps)) && RemapBuilt(q[i])
  {
    seq(|p|, i requires 0 <= i < |p| => p[i].(remap := BuildRemap(p[i].kps)))
  }

  /** All images of the project carry their built remap tables. */
  predicate AllRemapsBuilt(p: Project)
  {
    forall i :: 0 <= i < |p| ==> RemapBuilt(p[i])
  }

  /** The list `ml` of image `i` can be rewritten: its peer is unknown, or
      all its pairs resolve. */
  predicate ListResolves(p: Project, i: nat, ml: MatchList)
    requires i < |p|
  {
    match FindIndexByName(p, ml.peer)
    case None => true
    case Some(j) => AllResolve(p[i], p[j], ml.pairs)
  }

  /** `ml'` is list `ml` of image `i` after rewriting: same peer; untouched
      when the peer is unknown, canonicalized pair by pair otherwise. */
  predicate ListRewritten(p: Project, i: nat, ml: MatchList, ml': MatchList)
    requires i < |p|
  {
    && ml'.peer == ml.peer
    && match FindIndexByName(p, ml.peer)
       case None => ml'.pairs == ml.pairs
       case Some(j) => PairsCanonicalized(p[i], p[j], ml.pairs, ml'.pairs)
  }

  function RewriteLists(p: Project, i: nat, mls: seq<MatchList>): (r: Result<seq<MatchList>>)
    requires i < |p| && AllRemapsBuilt(p)
    ensures r.Ok? <==> forall k :: 0 <= k < |mls| ==> ListResolves(p, i, mls[k])
    ensures r.Ok? ==> |r.value| == |mls|
    ensures r.Ok? ==> forall k :: 0 <= k < |mls| ==> ListRewritten(p, i, mls[k], r.value[k])
    decreases |mls|
  {
    if |mls| == 0 then Ok([])
    else
      var head: Result<MatchList> :=
        match FindIndexByName(p, mls[0].peer)
        case None => Ok(mls[0])
        case Some(j) =>
          match RewriteList(p[i], i, p[j], j, mls[0].pairs)
          case Err(e) => Err(e)
          case Ok(pairs) => Ok(mls[0].(pairs := pairs));
      match head
      case Err(e) => Err(e)
      case Ok(ml) =>
        match RewriteLists(p, i, mls[1..])
        case Err(e) => Err(e)
        case Ok(rest) =>
          assert forall k :: 1 <= k < |mls| ==> mls[1..][k - 1] == mls[k];
          Ok([ml] + rest)
  }

  /** Every match list of the first `n` images can be rewritten. */
  predicate ImagesResolve(p: Project, n: nat)
  {
    forall a, k :: 0 <= a < n && a < |p| && 0 <= k < |p[a].matches| ==> ListResolves(p, a, p[a].matches[k])
  }

  /** Image `q` is image `a` of `p` with its match lists rewritten. */
  predicate ImageRewritten(p: Project, a: nat, q: Image)
    requires a < |p|
  {
    && q.name == p[a].name && q.kps == p[a].kps && q.remap == p[a].remap
    && |q.matches| == |p[a].matches|
    && forall k :: 0 <= k < |p[a].matches| ==> ListRewritten(p, a, p[a].matches[k], q.matches[k])
  }

  /** Rewrites the lists of the first `n` images in image order; the first
      failure aborts. */
  function RewriteImages(p: Project, n: nat): (r: Result<seq<Image>>)
    requires n <= |p| && AllRemapsBuilt(p)
    ensures r.Ok? <==> ImagesResolve(p, n)
    ensures r.Ok? ==> |r.value| == n
    ensures r.Ok? ==> forall a :: 0 <= a < n ==> ImageRewritten(p, a, r.value[a])
    decreases n
  {
    if n == 0 then Ok([])
    else
      ImagesResolveSnoc(p, n - 1);
      match RewriteImages(p, n - 1)
      case Err(e) => Err(e)
      case Ok(prefix) =>
        match RewriteLists(p, n - 1, p[n - 1].matches)
        case Err(e) => Err(e)
        case Ok(mls) =>
          ImagesRewrittenSnoc(p, n - 1, prefix, p[n - 1].(matches := mls), prefix + [p[n - 1].(matches := mls)]);
          Ok(prefix + [p[n - 1].(matches := mls)])
  }

  lemma ImagesResolveSnoc(p: Project, m: nat)
    requires m < |p|
    ensures ImagesResolve(p, m + 1) <==>
      ImagesResolve(p, m) && forall k :: 0 <= k < |p[m].matches| ==> ListResolves(p, m, p[m].matches[k])
  {
  }

  lemma ImagesRewrittenSnoc(p: Project, n: nat, prefix: seq<Image>, img: Image, r: seq<Image>)
    requires n < |p| && |prefix| == n && r == prefix + [img]
    requires forall a :: 0 <= a < n ==> ImageRewritten(p, a, prefix[a])
    requires ImageRewritten(p, n, img)
    ensures forall a :: 0 <= a < n + 1 ==> ImageRewritten(p, a, r[a])
  {
    assert forall a :: 0 <= a < n ==> r[a] == prefix[a];
  }

  /** Every pair of every list whose peer is known resolves on both sides. */
  predicate MatchesResolve(p: Project)
  {
    forall a, k :: 0 <= a < |p| && 0 <= k < |p[a].matches| ==> ListResolves(p, a, p[a].matches[k])
  }

  /** `q` is project `p` after merge_duplicates: same images and keypoints,
      remap tables built, every list of a known peer canonicalized in place. */
  predicate Merged(p: Project, q: Project)
  {
    && |q| == |p|
    && forall a :: 0 <= a < |p| ==>
         && q[a].name == p[a].name && q[a].kps == p[a].kps
         && RemapBuilt(q[a])
         && |q[a].matches| == |p[a].matches|
         && forall k :: 0 <= k < |p[a].matches| ==> ListRewritten(p, a, p[a].matches[k], q[a].matches[k])
  }

  /** A lookup on the project with its remap tables filled in agrees with the
      plain project, and so do the rewrite predicates. */
  lemma WithRemapsLookup(p: Project)
    ensures forall name :: FindIndexByName(WithRemaps(p), name) == FindIndexByName(p, name)
  {
    forall name
      ensures FindIndexByName(WithRemaps(p), name) == FindIndexByName(p, name)
    {
      SameNamesSameLookup(WithRemaps(p), p, name);
    }
  }

  /** merge_duplicates: build every remap table, then rewrite every match
      list of a known peer; fails iff some pair does not resolve. */
  function MergeDuplicates(p: Project): (r: Result<Project>)
    ensures r.Ok? <==> MatchesResolve(p)
    ensures r.Ok? ==> Merged(p, r.value)
  {
    var q := WithRemaps(p);
    WithRemapsResolve(p);
    match RewriteImages(q, |q|)
    case Err(e) => Err(e)
    case Ok(images) =>
      WithRemapsMerged(p, images);
      Ok(images)
  }

  /** Filling in the remap tables does not change which lists resolve. */
  lemma WithRemapsResolve(p: Project)
    ensures ImagesResolve(WithRemaps(p), |p|) <==> MatchesResolve(p)
  {
    var q := WithRemaps(p);
    WithRemapsLookup(p);
    assert forall a, ml :: 0 <= a < |p| ==> ListResolves(q, a, ml) == ListResolves(p, a, ml);
  }

  /** Rewriting the project with its remap tables filled in merges `p`. */
  lemma WithRemapsMerged(p: Project, images: seq<Image>)
    requires |images| == |p|
    requires forall a :: 0 <= a < |p| ==> ImageRewritten(WithRemaps(p), a, images[a])
    ensures Merged(p, images)
  {
    var q := WithRemaps(p);
    WithRemapsLookup(p);
    assert forall a, ml, ml' :: 0 <= a < |p| ==> ListRewritten(q, a, ml, ml') == ListRewritten(p, a, ml, ml');
  }

  /** Rewriting pairs that are already canonical gives them back unchanged. */
  lemma CanonicalizedIsFixed(a: Image, b: Image, orig: seq<Pair>, pairs: seq<Pair>, out: seq<Pair>)
    requires PairsCanonicalized(a, b, orig, pairs)
    requires PairsCanonicalized(a, b, pairs, out)
    ensures out == pairs
  {
    forall k | 0 <= k < |pairs|
      ensures out[k] == pairs[k]
    {
      CanonicalUnique(a.kps, pairs[k].idx1, out[k].idx1);
      CanonicalUnique(b.kps, pairs[k].idx2, out[k].idx2);
    }
  }

  /** Canonical pairs always resolve: the canonical keypoint is itself used. */
  lemma CanonicalizedResolves(a: Image, b: Image, orig: seq<Pair>, pairs: seq<Pair>)
    requires PairsCanonicalized(a, b, orig, pairs)
    ensures AllResolve(a, b, pairs)
  {
    forall k | 0 <= k < |pairs|
      ensures Resolves(a.kps, pairs[k].idx1) && Resolves(b.kps, pairs[k].idx2)
    {
      var c1, c2 := pairs[k].idx1, pairs[k].idx2;
      assert a.kps[c1].used && a.kps[c1].pt == a.kps[c1].pt;
      assert b.kps[c2].used && b.kps[c2].pt == b.kps[c2].pt;
    }
  }

  /** Deduplication and rewriting are idempotent: a second run over the
      merged project succeeds and changes nothing. */
  lemma MergeIdempotent(p: Project)
    requires MergeDuplicates(p).Ok?
    ensures MergeDuplicates(MergeDuplicates(p).value) == MergeDuplicates(p)
  {
    var q := MergeDuplicates(p).value;
    forall name
      ensures FindIndexByName(q, name) == FindIndexByName(p, name)
    {
      SameNamesSameLookup(q, p, name);
    }
    forall a, k | 0 <= a < |q| && 0 <= k < |q[a].matches|
      ensures ListResolves(q, a, q[a].matches[k])
    {
      MergedListResolves(p, q, a, k);
    }
    var q2 := MergeDuplicates(q).value;
    forall a | 0 <= a < |q|
      ensures q2[a] == q[a]
    {
      MergedImageFixed(p, q, q2, a);
    }
    assert q2 == q;
  }

  /** A rewritten list resolves again. */
  lemma MergedListResolves(p: Project, q: Project, a: nat, k: nat)
    requires Merged(p, q) && a < |q| && k < |q[a].matches|
    requires forall name :: FindIndexByName(q, name) == FindIndexByName(p, name)
    ensures ListResolves(q, a, q[a].matches[k])
  {
    var ml := p[a].matches[k];
    assert ListRewritten(p, a, ml, q[a].matches[k]);
    match FindIndexByName(p, ml.peer)
    case None =>
    case Some(j) =>
      CanonicalizedResolves(p[a], p[j], ml.pairs, q[a].matches[k].pairs);
  }

  /** Rewriting a rewritten image changes none of its lists. */
  lemma MergedImageFixed(p: Project, q: Project, q2: Project, a: nat)
    requires Merged(p, q) && Merged(q, q2) && a < |q|
    requires forall name :: FindIndexByName(q, name) == FindIndexByName(p, name)
    ensures q2[a] == q[a]
  {
    forall k | 0 <= k < |q[a].matches|
      ensures q2[a].matches[k] == q[a].matches[k]
    {
      var ml := p[a].matches[k];
      assert ListRewritten(p, a, ml, q[a].matches[k]);
      assert ListRewritten(q, a, q[a].matches[k], q2[a].matches[k]);
      match FindIndexByName(p, ml.peer)
      case None =>
      case Some(j) =>
        CanonicalizedIsFixed(p[a], p[j], ml.pairs, q[a].matches[k].pairs, q2[a].matches[k].pairs);
    }
    assert q2[a].matches == q[a].matches;
  }
}

=== FILE: pair_checks.dfy ===
/** The two validators run after rewriting: removal of repeated pairs from
    each match list (check_for_pair_dups) and the count of keypoints matched
    more than once (check_for_1vn_dups). */
module PairChecks {
  import opened Types

  /** No element occurs twice. */
  predicate NoDups(s: seq<Pair>)
  {
    forall a, b :: 0 <= a < b < |s| ==> s[a] != s[b]
  }

  /** Position of the first occurrence of `x` in `s`. */
  function FirstPos(s: seq<Pair>, x: Pair): (r: nat)
    requires x in s
    ensures r < |s| && s[r] == x && x !in s[..r]
  {
    if s[0] == x then 0 else FirstPos(s[1..], x) + 1
  }

  /** The elements of a prefix one longer. */
  lemma PrefixMembers(s: seq<Pair>, k: nat)
    requires k < |s|
    ensures forall x :: x in s[..k + 1] <==> x in s[..k] || x == s[k]
  {
    assert s[..k + 1] == s[..k] + [s[k]];
  }

  /** The subsequence of first occurrences: a pair is kept exactly when no
      earlier position holds it. */
  function FirstOccurrences(s: seq<Pair>): (r: seq<Pair>)
    ensures forall x :: x in r <==> x in s
    ensures NoDups(r)
    ensures |r| <= |s|
    decreases |s|
  {
    if |s| == 0 then []
    else
      var n := |s| - 1;
      var prev := FirstOccurrences(s[..n]);
      if s[n] in s[..n] then prev else prev + [s[n]]
  }

  /** One more element: kept when its prefix does not hold it, dropped otherwise. */
  lemma FirstOccurrencesSnoc(s: seq<Pair>, k: nat)
    requires k < |s|
    ensures FirstOccurrences(s[..k + 1]) ==
      if s[k] in s[..k] then FirstOccurrences(s[..k]) else FirstOccurrences(s[..k]) + [s[k]]
  {
    assert s[..k + 1][..k] == s[..k];
    assert s[..k + 1][k] == s[k];
  }

  /** The pairs of `r` drawn from `s` appear in the order of their first
      positions in `s`. */
  predicate InFirstPosOrder(s: seq<Pair>, r: seq<Pair>)
  {
    forall a, b :: 0 <= a < b < |r| && r[a] in s && r[b] in s ==> FirstPos(s, r[a]) < FirstPos(s, r[b])
  }

  /** The kept pairs appear in the order of their first positions in `s`. */
  lemma {:induction false} FirstOccurrencesOrdered(s: seq<Pair>)
    ensures InFirstPosOrder(s, FirstOccurrences(s))
    decreases |s|
  {
    if |s| > 0 {
      var n := |s| - 1;
      var prev := FirstOccurrences(s[..n]);
      var r := FirstOccurrences(s);
      FirstOccurrencesOrdered(s[..n]);
      FirstPosPrefix(s, n);
      forall a | 0 <= a < |prev|
        ensures FirstPos(s, prev[a]) == FirstPos(s[..n], prev[a]) < n
      {
        assert prev[a] in prev;
      }
      if s[n] in s[..n] {
        assert r == prev;
      } else {
        assert r == prev + [s[n]];
        assert FirstPos(s, s[n]) == n;
        forall a, b | 0 <= a < b < |r|
          ensures FirstPos(s, r[a]) < FirstPos(s, r[b])
        {
          assert r[a] == prev[a];
          if b < |prev| {
            assert r[b] == prev[b];
          }
        }
      }
    }
  }

  /** Extending a sequence keeps first positions of what its prefix holds. */
  lemma FirstPosPrefix(s: seq<Pair>, n: nat)
    requires n <= |s|
    ensures forall x :: x in s[..n] ==> FirstPos(s, x) == FirstPos(s[..n], x)
  {
    forall x | x in s[..n]
      ensures FirstPos(s, x) == FirstPos(s[..n], x)
    {
      var i := FirstPos(s[..n], x);
      var k := FirstPos(s, x);
      assert s[..n][..i] == s[..i];
    }
  }

  /** A list without repeated pairs is its own first-occurrence subsequence. */
  lemma {:induction false} FirstOccurrencesOfNoDups(s: seq<Pair>)
    requires NoDups(s)
    ensures FirstOccurrences(s) == s
    decreases |s|
  {
    if |s| > 0 {
      var n := |s| - 1;
      NoDupsPrefix(s, n);
      FirstOccurrencesOfNoDups(s[..n]);
      FirstOccurrencesNew(s);
      assert s == s[..n] + [s[n]];
    }
  }

  /** A last pair that its prefix does not hold is kept. */
  lemma FirstOccurrencesNew(s: seq<Pair>)
    requires |s| > 0 && s[|s| - 1] !in s[..|s| - 1]
    ensures FirstOccurrences(s) == FirstOccurrences(s[..|s| - 1]) + [s[|s| - 1]]
  {
  }

  /** A prefix of a list without repeats has none, and misses the last pair. */
  lemma NoDupsPrefix(s: seq<Pair>, n: nat)
    requires NoDups(s) && n < |s|
    ensures NoDups(s[..n]) && s[n] !in s[..n]
  {
    assert forall a :: 0 <= a < n ==> s[..n][a] == s[a];
  }

  /** Removing duplicate pairs twice is the same as removing them once. */
  lemma FirstOccurrencesIdempotent(s: seq<Pair>)
    ensures FirstOccurrences(FirstOccurrences(s)) == FirstOccurrences(s)
  {
    FirstOccurrencesOfNoDups(FirstOccurrences(s));
  }

  /** The per-list loop of the duplicate-pair pass, with its `pair_dict`
      seen-set: returns the deduplicated list and the number dropped. */
  method DedupPairs(s: seq<Pair>) returns (out: seq<Pair>, dups: nat)
    ensures out == FirstOccurrences(s)
    ensures NoDups(out) && forall x :: x in out <==> x in s
    ensures dups == |s| - |out|
  {
    var seen: set<Pair> := {};
    out := [];
    dups := 0;
    var k := 0;
    while k < |s|
      invariant 0 <= k <= |s|
      invariant out == FirstOccurrences(s[..k])
      invariant forall x :: x in seen <==> x in s[..k]
      invariant dups + |out| == k
    {
      FirstOccurrencesSnoc(s, k);
      PrefixMembers(s, k);
      if s[k] !in seen {
        seen := seen + {s[k]};
        out := out + [s[k]];
      } else {
        dups := dups + 1;
      }
      k := k + 1;
    }
    assert s[..k] == s;
  }

  /** List `ml'` is list `ml` after the duplicate-pair pass: a list whose peer
      is unknown is untouched, the others keep first occurrences only. */
  predicate ListDeduped(p: Project, ml: MatchList, ml': MatchList)
  {
    && ml'.peer == ml.peer
    && ml'.pairs == (if FindIndexByName(p, ml.peer).None? then ml.pairs else FirstOccurrences(ml.pairs))
  }

  /** Total number of pairs over a sequence of match lists. */
  function ListsTotal(mls: seq<MatchList>): nat
  {
    if |mls| == 0 then 0 else |mls[0].pairs| + ListsTotal(mls[1..])
  }

  function ProjectTotal(p: Project): nat
  {
    if |p| == 0 then 0 else ProjectTotal(p[..|p| - 1]) + ListsTotal(p[|p| - 1].matches)
  }

  function DedupLists(p: Project, mls: seq<MatchList>): (r: (seq<MatchList>, nat))
    ensures |r.0| == |mls|
    ensures forall k :: 0 <= k < |mls| ==> ListDeduped(p, mls[k], r.0[k])
    ensures r.1 + ListsTotal(r.0) == ListsTotal(mls)
    decreases |mls|
  {
    if |mls| == 0 then ([], 0)
    else
      var rest := DedupLists(p, mls[1..]);
      assert forall k :: 1 <= k < |mls| ==> mls[1..][k - 1] == mls[k];
      if FindIndexByName(p, mls[0].peer).None? then ([mls[0]] + rest.0, rest.1)
      else
        var out := FirstOccurrences(mls[0].pairs);
        ([mls[0].(pairs := out)] + rest.0, rest.1 + |mls[0].pairs| - |out|)
  }

  /** Image `q` is image `a` of `p` after the duplicate-pair pass. */
  predicate ImageDeduped(p: Project, a: nat, q: Image)
    requires a < |p|
  {
    && q == p[a].(matches := q.matches)
    && |q.matches| == |p[a].matches|
    && forall k :: 0 <= k < |p[a].matches| ==> ListDeduped(p, p[a].matches[k], q.matches[k])
  }

  function DedupImages(p: Project, n: nat): (r: (seq<Image>, nat))
    requires n <= |p|
    ensures |r.0| == n
    ensures forall a :: 0 <= a < n ==> ImageDeduped(p, a, r.0[a])
    ensures r.1 + ProjectTotal(r.0) == ProjectTotal(p[..n])
    decreases n
  {
    if n == 0 then ([], 0)
    else
      var prefix := DedupImages(p, n - 1);
      var lists := DedupLists(p, p[n - 1].matches);
      var img := p[n - 1].(matches := lists.0);
      DedupImagesTotal(p, n, prefix.0, img, lists.1, prefix.1);
      DedupedOne(p, n - 1);
      DedupedSnoc(p, n - 1, prefix.0, img, prefix.0 + [img]);
      (prefix.0 + [img], prefix.1 + lists.1)
  }

  lemma DedupImagesTotal(p: Project, n: nat, prefix: seq<Image>, img: Image, dropped: nat, before: nat)
    requires 0 < n <= |p|
    requires before + ProjectTotal(prefix) == ProjectTotal(p[..n - 1])
    requires dropped + ListsTotal(img.matches) == ListsTotal(p[n - 1].matches)
    ensures before + dropped + ProjectTotal(prefix + [img]) == ProjectTotal(p[..n])
  {
    ProjectTotalSnoc(prefix, img);
    ProjectTotalSnoc(p[..n - 1], p[n - 1]);
    assert p[..n - 1] + [p[n - 1]] == p[..n];
  }

  lemma DedupedOne(p: Project, m: nat)
    requires m < |p|
    ensures ImageDeduped(p, m, p[m].(matches := DedupLists(p, p[m].matches).0))
  {
  }

  lemma ProjectTotalSnoc(q: seq<Image>, img: Image)
    ensures ProjectTotal(q + [img]) == ProjectTotal(q) + ListsTotal(img.matches)
  {
    assert (q + [img])[..|q|] == q;
  }

  lemma DedupedSnoc(p: Project, m: nat, prefix: seq<Image>, img: Image, r: seq<Image>)
    requires m < |p| && |prefix| == m && r == prefix + [img]
    requires forall a :: 0 <= a < m ==> ImageDeduped(p, a, prefix[a])
    requires ImageDeduped(p, m, img)
    ensures forall a :: 0 <= a < m + 1 ==> ImageDeduped(p, a, r[a])
  {
    assert forall a :: 0 <= a < m ==> r[a] == prefix[a];
  }

  /** check_for_pair_dups: every list whose peer is known loses its repeated
      pairs; the count is the number of pairs removed over the project. */
  function CheckForPairDups(p: Project): (r: (Project, nat))
    ensures |r.0| == |p|
    ensures forall a :: 0 <= a < |p| ==> ImageDeduped(p, a, r.0[a])
    ensures r.1 + ProjectTotal(r.0) == ProjectTotal(p)
  {
    assert p[..|p|] == p;
    DedupImages(p, |p|)
  }

  /** After the pass, no list of a known peer repeats a pair. */
  lemma PairDupsRemoved(p: Project, a: nat, k: nat)
    requires a < |p| && k < |p[a].matches|
    requires FindIndexByName(p, p[a].matches[k].peer).Some?
    ensures NoDups(CheckForPairDups(p).0[a].matches[k].pairs)
  {
  }

  /** A second duplicate-pair pass finds nothing and changes nothing. */
  lemma CheckForPairDupsIdempotent(p: Project)
    ensures CheckForPairDups(CheckForPairDups(p).0) == (CheckForPairDups(p).0, 0)
  {
    var q := CheckForPairDups(p).0;
    var r := CheckForPairDups(q);
    assert forall b :: 0 <= b < |p| ==> q[b].name == p[b].name;
    forall a | 0 <= a < |q|
      ensures r.0[a] == q[a]
    {
      DedupedTwiceAt(p, q, r.0, a);
    }
    assert r.0 == q;
  }

  lemma DedupedTwiceAt(p: Project, q: Project, r: Project, a: nat)
    requires |q| == |p| == |r| && a < |p|
    requires forall b :: 0 <= b < |p| ==> q[b].name == p[b].name
    requires ImageDeduped(p, a, q[a]) && ImageDeduped(q, a, r[a])
    ensures r[a] == q[a]
  {
    forall k | 0 <= k < |q[a].matches|
      ensures r[a].matches[k] == q[a].matches[k]
    {
      SameNamesSameLookup(q, p, p[a].matches[k].peer);
      FirstOccurrencesIdempotent(p[a].matches[k].pairs);
    }
    assert r[a].matches == q[a].matches;
  }

  /** The first indices appearing in a list. */
  function FirstIndices(s: seq<Pair>): set<nat>
  {
    set k | 0 <= k < |s| :: s[k].idx1
  }

  /** Position of the earliest pair whose first index is `x`. */
  function FirstWith(s: seq<Pair>, x: nat): (r: nat)
    requires x in FirstIndices(s)
    ensures r < |s| && s[r].idx1 == x && x !in FirstIndices(s[..r])
  {
    if s[0].idx1 == x then 0
    else
      var k :| 0 <= k < |s| && s[k].idx1 == x;
      assert s[1..][k - 1].idx1 == x;
      var r := FirstWith(s[1..], x) + 1;
      assert forall j :: 1 <= j < r ==> s[..r][j] == s[1..][..r - 1][j - 1];
      r
  }

  /** Extending a list keeps the earliest position of first indices its prefix holds. */
  lemma FirstWithPrefix(s: seq<Pair>, n: nat, x: nat)
    requires n <= |s| && x in FirstIndices(s[..n])
    ensures x in FirstIndices(s) && FirstWith(s, x) == FirstWith(s[..n], x)
  {
    var i := FirstWith(s[..n], x);
    assert s[i].idx1 == x;
    var k := FirstWith(s, x);
    assert s[..n][..i] == s[..i];
  }

  /** The `kp_dict` of the one-to-many pass after scanning `s`: every first
      index maps to the second index of the earliest pair carrying it. */
  function KpDict(s: seq<Pair>): (r: map<nat, nat>)
    ensures r.Keys == FirstIndices(s)
    ensures forall x :: x in r ==> r[x] == s[FirstWith(s, x)].idx2
    decreases |s|
  {
    if |s| == 0 then map[]
    else
      var n := |s| - 1;
      var d := KpDict(s[..n]);
      assert forall k :: 0 <= k < n ==> s[..n][k] == s[k];
      assert FirstIndices(s) == FirstIndices(s[..n]) + {s[n].idx1};
      forall x | x in d
        ensures x in FirstIndices(s) && FirstWith(s, x) == FirstWith(s[..n], x)
      {
        FirstWithPrefix(s, n, x);
      }
      if s[n].idx1 in d then d
      else
        assert FirstWith(s, s[n].idx1) == n;
        d[s[n].idx1 := s[n].idx2]
  }

  /** Pair `k` repeats a first index already matched earlier in the list. */
  predicate RepeatsFirst(s: seq<Pair>, k: int)
  {
    0 <= k < |s| && s[k].idx1 in FirstIndices(s[..k])
  }

  /** If pair `k` repeats a first index, the warning branch reads valid
      keypoints of the peer: the earliest pair's second index and its own. */
  predicate SafeAt(s: seq<Pair>, k: int, peerSize: nat)
    requires 0 <= k < |s|
  {
    RepeatsFirst(s, k) ==> s[FirstWith(s, s[k].idx1)].idx2 < peerSize && s[k].idx2 < peerSize
  }

  /** The warning branch never indexes past the peer's `peerSize` keypoints. */
  predicate ScanSafe(s: seq<Pair>, peerSize: nat)
  {
    forall k :: 0 <= k < |s| ==> SafeAt(s, k, peerSize)
  }

  lemma FirstIndicesSnoc(s: seq<Pair>)
    requires |s| > 0
    ensures FirstIndices(s) == FirstIndices(s[..|s| - 1]) + {s[|s| - 1].idx1}
  {
    assert forall k :: 0 <= k < |s| - 1 ==> s[..|s| - 1][k] == s[k];
  }

  /** A list is safe to scan only if its prefix is. */
  lemma ScanSafePrefix(s: seq<Pair>, peerSize: nat)
    requires |s| > 0
    ensures ScanSafe(s, peerSize) ==> ScanSafe(s[..|s| - 1], peerSize)
  {
    var n := |s| - 1;
    forall k | 0 <= k < n
      ensures SafeAt(s, k, peerSize) == SafeAt(s[..n], k, peerSize)
    {
      SafeAtPrefix(s, k, peerSize);
    }
  }

  /** Whether pair `k` is safe does not depend on what follows it. */
  lemma SafeAtPrefix(s: seq<Pair>, k: nat, peerSize: nat)
    requires k < |s| - 1
    ensures SafeAt(s, k, peerSize) == SafeAt(s[..|s| - 1], k, peerSize)
  {
    var n := |s| - 1;
    assert s[..n][..k] == s[..k];
    assert s[..n][k] == s[k];
    if RepeatsFirst(s, k) {
      FirstWithPrefix(s, n, s[k].idx1);
    }
  }

  /** A safe prefix followed by a safe last pair makes a safe list. */
  lemma ScanSafeSnoc(s: seq<Pair>, peerSize: nat)
    requires |s| > 0
    requires ScanSafe(s[..|s| - 1], peerSize)
    ensures SafeAt(s, |s| - 1, peerSize) ==> ScanSafe(s, peerSize)
  {
    var n := |s| - 1;
    forall k | 0 <= k < n
      ensures SafeAt(s, k, peerSize)
    {
      SafeAtPrefix(s, k, peerSize);
    }
  }

  /** The last pair is safe when its first index is new, or when both peer
      indices the warning branch reads are in range. */
  lemma SafeAtLast(s: seq<Pair>, peerSize: nat)
    requires |s| > 0
    ensures var n := |s| - 1;
      var d := KpDict(s[..n]);
      SafeAt(s, n, peerSize) <==> (s[n].idx1 in d ==> d[s[n].idx1] < peerSize && s[n].idx2 < peerSize)
  {
    var n := |s| - 1;
    if s[n].idx1 in FirstIndices(s[..n]) {
      FirstWithPrefix(s, n, s[n].idx1);
      assert s[..n][FirstWith(s[..n], s[n].idx1)] == s[FirstWith(s[..n], s[n].idx1)];
    }
  }

  /** The per-list loop of the one-to-many pass against peer `bi` with
      `peerSize` keypoints: counts the pairs whose first index repeats. */
  function OneVsManyScan(s: seq<Pair>, peerSize: nat, bi: nat): (r: Result<nat>)
    ensures r.Ok? <==> ScanSafe(s, peerSize)
    ensures r.Ok? ==> r.value == |s| - |FirstIndices(s)|
    decreases |s|
  {
    if |s| == 0 then Ok(0)
    else
      var n := |s| - 1;
      ScanSafePrefix(s, peerSize);
      match OneVsManyScan(s[..n], peerSize, bi)
      case Err(e) => Err(e)
      case Ok(c) =>
        var d := KpDict(s[..n]);
        FirstIndicesSnoc(s);
        SafeAtLast(s, peerSize);
        ScanSafeSnoc(s, peerSize);
        if s[n].idx1 !in d then Ok(c)
        else if d[s[n].idx1] >= peerSize then Err(KeypointIndexOutOfRange(bi, d[s[n].idx1]))
        else if s[n].idx2 >= peerSize then Err(KeypointIndexOutOfRange(bi, s[n].idx2))
        else Ok(c + 1)
  }

  lemma {:induction false} FirstIndicesBound(s: seq<Pair>)
    ensures |FirstIndices(s)| <= |s|
    decreases |s|
  {
    if |s| > 0 {
      FirstIndicesSnoc(s);
      FirstIndicesBound(s[..|s| - 1]);
    }
  }

  /** Pairs of list `ml` whose first index repeats, counted only when its peer is known. */
  function ListRepeats(p: Project, ml: MatchList): nat
  {
    FirstIndicesBound(ml.pairs);
    if FindIndexByName(p, ml.peer).None? then 0 else |ml.pairs| - |FirstIndices(ml.pairs)|
  }

  /** The scan of list `ml` cannot fail: its peer is unknown, or its warning
      branch only reads valid keypoints of the peer. */
  predicate ListScanSafe(p: Project, ml: MatchList)
  {
    match FindIndexByName(p, ml.peer)
    case None => true
    case Some(j) => ScanSafe(ml.pairs, |p[j].kps|)
  }

  function RepeatsOfLists(p: Project, mls: seq<MatchList>): nat
  {
    if |mls| == 0 then 0 else ListRepeats(p, mls[0]) + RepeatsOfLists(p, mls[1..])
  }

  function RepeatsOfImages(p: Project, n: nat): nat
    requires n <= |p|
  {
    if n == 0 then 0 else RepeatsOfImages(p, n - 1) + RepeatsOfLists(p, p[n - 1].matches)
  }

  /** The one-to-many scan of one list: skipped when its peer is unknown. */
  function ScanList(p: Project, ml: MatchList): (r: Result<nat>)
    ensures r.Ok? <==> ListScanSafe(p, ml)
    ensures r.Ok? ==> r.value == ListRepeats(p, ml)
  {
    match FindIndexByName(p, ml.peer)
    case None => Ok(0)
    case Some(j) => OneVsManyScan(ml.pairs, |p[j].kps|, j)
  }

  function ScanLists(p: Project, mls: seq<MatchList>): (r: Result<nat>)
    ensures r.Ok? <==> forall k :: 0 <= k < |mls| ==> ListScanSafe(p, mls[k])
    ensures r.Ok? ==> r.value == RepeatsOfLists(p, mls)
    decreases |mls|
  {
    if |mls| == 0 then Ok(0)
    else
      assert forall k :: 1 <= k < |mls| ==> mls[1..][k - 1] == mls[k];
      match ScanList(p, mls[0])
      case Err(e) => Err(e)
      case Ok(c) =>
        match ScanLists(p, mls[1..])
        case Err(e) => Err(e)
        case Ok(rest) => Ok(c + rest)
  }

  function ScanImages(p: Project, n: nat): (r: Result<nat>)
    requires n <= |p|
    ensures r.Ok? <==> forall a, k :: 0 <= a < n && 0 <= k < |p[a].matches| ==> ListScanSafe(p, p[a].matches[k])
    ensures r.Ok? ==> r.value == RepeatsOfImages(p, n)
    decreases n
  {
    if n == 0 then Ok(0)
    else
      match ScanImages(p, n - 1)
      case Err(e) => Err(e)
      case Ok(c) =>
        match ScanLists(p, p[n - 1].matches)
        case Err(e) => Err(e)
        case Ok(d) => Ok(c + d)
  }

  /** check_for_1vn_dups: the number of pairs, over all lists of known peers,
      whose first index was already matched earlier in the same list. It
      returns a count only; no match list is changed. It fails exactly when
      its warning branch would read past the peer's keypoints. */
  function CheckFor1vnDups(p: Project): (r: Result<nat>)
    ensures r.Ok? <==> forall a, k :: 0 <= a < |p| && 0 <= k < |p[a].matches| ==> ListScanSafe(p, p[a].matches[k])
    ensures r.Ok? ==> r.value == RepeatsOfImages(p, |p|)
  {
    ScanImages(p, |p|)
  }
}

=== FILE: pipeline.dfy ===
/** The stages in the order they run: merge, duplicate-pair removal, the
    one-to-many scan, proto-track construction and linking. Only the merge
    can fail on its own; every later stage reads indices the merge has
    already checked. */
module Pipeline {
  import opened Types
  import opened KeypointMerge
  import opened PairChecks
  import opened MatchStructure
  import opened Linker
  import TrackSort

  /** Every pair of list `k` of image `a` indexes real keypoints on both
      sides when the list's peer is known. */
  predicate ListInRange(p: Project, a: nat, k: nat)
    requires a < |p| && k < |p[a].matches|
  {
    match FindIndexByName(p, p[a].matches[k].peer)
    case None => true
    case Some(j) =>
      forall pr :: pr in p[a].matches[k].pairs ==> pr.idx1 < |p[a].kps| && pr.idx2 < |p[j].kps|
  }

  /** Every list of every image is in range. */
  predicate PairsInRange(p: Project)
  {
    forall a, k :: 0 <= a < |p| && 0 <= k < |p[a].matches| ==> ListInRange(p, a, k)
  }

  /** Canonical indices are keypoint indices, so a merged project is in range. */
  lemma MergedInRange(p: Project, q: Project)
    requires Merged(p, q)
    ensures PairsInRange(q)
  {
    forall a, k | 0 <= a < |q| && 0 <= k < |q[a].matches|
      ensures ListInRange(q, a, k)
    {
      MergedListInRange(p, q, a, k);
    }
  }

  lemma MergedListInRange(p: Project, q: Project, a: nat, k: nat)
    requires Merged(p, q) && a < |q| && k < |q[a].matches|
    ensures ListInRange(q, a, k)
  {
    var ml := p[a].matches[k];
    assert ListRewritten(p, a, ml, q[a].matches[k]);
    SameNamesSameLookup(q, p, ml.peer);
    match FindIndexByName(q, ml.peer)
    case None =>
    case Some(j) =>
      var pairs := q[a].matches[k].pairs;
      forall pr | pr in pairs
        ensures pr.idx1 < |q[a].kps| && pr.idx2 < |q[j].kps|
      {
        var i :| 0 <= i < |pairs| && pairs[i] == pr;
        assert CanonicalOf(p[a].kps, ml.pairs[i].idx1, pr.idx1);
        assert CanonicalOf(p[j].kps, ml.pairs[i].idx2, pr.idx2);
      }
  }

  /** `q` is `p` with every list of a known peer reduced to its first
      occurrences. */
  predicate Deduped(p: Project, q: Project)
  {
    |q| == |p| && forall b :: 0 <= b < |p| ==> ImageDeduped(p, b, q[b])
  }

  /** Removing repeated pairs keeps a project in range. */
  lemma DedupInRange(p: Project, q: Project)
    requires PairsInRange(p) && Deduped(p, q)
    ensures PairsInRange(q)
  {
    forall a, k | 0 <= a < |q| && 0 <= k < |q[a].matches|
      ensures ListInRange(q, a, k)
    {
      DedupListInRange(p, q, a, k);
    }
  }

  lemma DedupListInRange(p: Project, q: Project, a: nat, k: nat)
    requires PairsInRange(p) && Deduped(p, q)
    requires a < |q| && k < |q[a].matches|
    ensures ListInRange(q, a, k)
  {
    assert ImageDeduped(p, a, q[a]);
    var ml := p[a].matches[k];
    assert ListDeduped(p, ml, q[a].matches[k]);
    assert forall b :: 0 <= b < |p| ==> q[b].name == p[b].name;
    SameNamesSameLookup(q, p, ml.peer);
    assert ListInRange(p, a, k);
    match FindIndexByName(q, ml.peer)
    case None =>
    case Some(j) =>
      assert ImageDeduped(p, j, q[j]);
      forall pr | pr in q[a].matches[k].pairs
        ensures pr.idx1 < |q[a].kps| && pr.idx2 < |q[j].kps|
      {
        assert pr in ml.pairs;
      }
  }

  /** A project in range yields proto-tracks in range. */
  lemma ProtosInRange(p: Project)
    requires PairsInRange(p)
    ensures TracksInRange(p, MakeMatchStructure(p))
  {
    var ts := MakeMatchStructure(p);
    forall a, k | 0 <= a < |ts| && 0 <= k < |ts[a].obs|
      ensures ObsInRange(p, ts[a].obs[k])
    {
      var t := ts[a];
      assert t in ts && IsProtoOf(p, t);
      var i, j := t.obs[0].img, t.obs[1].img;
      var pr := Pair(t.obs[0].kp, t.obs[1].kp);
      var m :| 0 <= m < |p[i].matches| && FindIndexByName(p, p[i].matches[m].peer) == Some(j)
        && pr in p[i].matches[m].pairs;
      assert ListInRange(p, i, m);
    }
  }

  /** Linking only regroups observations, so tracks in range stay in range. */
  lemma LinkInRange(p: Project, ts: seq<Track>)
    requires TracksInRange(p, ts)
    ensures TracksInRange(p, Link(ts))
  {
    var r := Link(ts);
    forall a, k | 0 <= a < |r| && 0 <= k < |r[a].obs|
      ensures ObsInRange(p, r[a].obs[k])
    {
      var o := r[a].obs[k];
      AllObsMember(r, o);
      AllObsMember(ts, o);
      var b :| 0 <= b < |ts| && o in ts[b].obs;
      var m :| 0 <= m < |ts[b].obs| && ts[b].obs[m] == o;
    }
  }

  /** A project in range never aborts the one-to-many scan. */
  lemma ScanInRange(p: Project)
    requires PairsInRange(p)
    ensures CheckFor1vnDups(p).Ok?
  {
    forall a, k | 0 <= a < |p| && 0 <= k < |p[a].matches|
      ensures ListScanSafe(p, p[a].matches[k])
    {
      ListScanInRange(p, a, k);
    }
  }

  lemma ListScanInRange(p: Project, a: nat, k: nat)
    requires PairsInRange(p) && a < |p| && k < |p[a].matches|
    ensures ListScanSafe(p, p[a].matches[k])
  {
    var ml := p[a].matches[k];
    assert ListInRange(p, a, k);
    match FindIndexByName(p, ml.peer)
    case None =>
    case Some(j) =>
      forall x | 0 <= x < |ml.pairs|
        ensures SafeAt(ml.pairs, x, |p[j].kps|)
      {
        assert ml.pairs[x] in ml.pairs;
        if RepeatsFirst(ml.pairs, x) {
          assert ml.pairs[FirstWith(ml.pairs, ml.pairs[x].idx1)] in ml.pairs;
        }
      }
  }

  /** `out` is what the stages after the merge make of the merged project:
      the deduplicated project, the number of pairs removed, the scan's
      repeat count, and the linked proto-tracks of the deduplicated project
      with coordinates, sorted stably longest first. */
  ghost predicate StagesOf(merged: Project, out: (Project, nat, nat, seq<UvTrack>))
  {
    var (q, dropped, repeats, tracks) := out;
    && Deduped(merged, q)
    && dropped + ProjectTotal(q) == ProjectTotal(merged)
    && repeats == RepeatsOfImages(q, |q|)
    && MaterializeAll(q, Link(MakeMatchStructure(q))).Ok?
    && SortedMaterialized(q, Link(MakeMatchStructure(q)), tracks)
    && TracksOfPipeline(q, tracks)
  }

  lemma StagesHold(merged: Project, out: (Project, nat, nat, seq<UvTrack>))
    requires out.0 == CheckForPairDups(merged).0 && out.1 == CheckForPairDups(merged).1
    requires CheckFor1vnDups(out.0).Ok? && out.2 == CheckFor1vnDups(out.0).value
    requires MaterializeAll(out.0, Link(MakeMatchStructure(out.0))).Ok?
    requires SortedMaterialized(out.0, Link(MakeMatchStructure(out.0)), out.3)
    requires TracksOfPipeline(out.0, out.3)
    ensures StagesOf(merged, out)
  {
    assert Deduped(merged, out.0);
  }

  /** The stages run one after another; the first failure aborts. Returns
      the deduplicated project, the number of pairs removed, the number of
      one-to-many repeats and the sorted coordinate tracks. Only the merge
      and the closing average of link_matches can fail: the latter exactly
      when no image holds a pair against a known later peer. */
  function Run(p: Project): (r: Result<(Project, nat, nat, seq<UvTrack>)>)
    ensures r.Ok? <==> MatchesResolve(p) && HasProtoPair(p)
    ensures MatchesResolve(p) && !HasProtoPair(p) ==> r == Err(NoTracksToAverage)
    ensures r.Ok? ==> StagesOf(MergeDuplicates(p).value, r.value) && |r.value.3| > 0
  {
    match MergeDuplicates(p)
    case Err(e) => Err(e)
    case Ok(merged) =>
      var (deduped, dropped) := CheckForPairDups(merged);
      AfterMerge(p, merged, deduped);
      var repeats := CheckFor1vnDups(deduped).value;
      var protos := MakeMatchStructure(deduped);
      match LinkMatches(deduped, protos)
      case Err(e) => Err(e)
      case Ok(tracks) =>
        LinkedShape(deduped, protos, tracks);
        StagesHold(merged, (deduped, dropped, repeats, tracks));
        Ok((deduped, dropped, repeats, tracks))
  }

  /** The pipeline with the closing average of link_matches guarded: it
      fails exactly when the merge fails, and a project with no pair against
      a known later peer yields no tracks. */
  function RunGuarded(p: Project): (r: Result<(Project, nat, nat, seq<UvTrack>)>)
    ensures r.Ok? <==> MatchesResolve(p)
    ensures MatchesResolve(p) && !HasProtoPair(p) ==> r.Ok? && r.value.3 == []
    ensures r.Ok? ==> StagesOf(MergeDuplicates(p).value, r.value)
  {
    match MergeDuplicates(p)
    case Err(e) => Err(e)
    case Ok(merged) =>
      var (deduped, dropped) := CheckForPairDups(merged);
      AfterMerge(p, merged, deduped);
      var repeats := CheckFor1vnDups(deduped).value;
      var protos := MakeMatchStructure(deduped);
      var tracks := LinkMatchesGuarded(deduped, protos).value;
      GuardedAgrees(deduped, protos);
      LinkedShape(deduped, protos, tracks);
      StagesHold(merged, (deduped, dropped, repeats, tracks));
      Ok((deduped, dropped, repeats, tracks))
  }

  /** The two pipelines agree wherever the source does not divide by zero. */
  lemma RunsAgree(p: Project)
    ensures HasProtoPair(p) ==> Run(p) == RunGuarded(p)
  {
    if HasProtoPair(p) && MatchesResolve(p) {
      var merged := MergeDuplicates(p).value;
      var deduped := CheckForPairDups(merged).0;
      AfterMerge(p, merged, deduped);
      GuardedAgrees(deduped, MakeMatchStructure(deduped));
    }
  }

  /** A project of one image with no matches: every stage before the
      closing average succeeds, and the average then divides by zero. */
  lemma SingleImageRaises(p: Project)
    requires p == [Image("a", [], map[], [])]
    ensures Run(p) == Err(NoTracksToAverage)
    ensures RunGuarded(p) == Ok((p, 0, 0, []))
  {
    assert !HasProtoPair(p);
  }

  /** What the later stages need from a merged project: the scan and the
      coordinate lookup cannot fail, and there are proto-tracks exactly when
      the input holds a pair against a known later peer. */
  lemma AfterMerge(p: Project, merged: Project, deduped: Project)
    requires Merged(p, merged) && deduped == CheckForPairDups(merged).0
    ensures CheckFor1vnDups(deduped).Ok?
    ensures TracksInRange(deduped, Link(MakeMatchStructure(deduped)))
    ensures MakeMatchStructure(deduped) != [] <==> HasProtoPair(p)
  {
    MergedInRange(p, merged);
    assert Deduped(merged, deduped);
    DedupInRange(merged, deduped);
    ScanInRange(deduped);
    ProtosInRange(deduped);
    LinkInRange(deduped, MakeMatchStructure(deduped));
    MergedProtoPair(p, merged);
    DedupProtoPair(merged, deduped);
    ProtosExist(deduped);
  }

  /** The merge keeps every list's peer and length, so it keeps whether some
      image holds a pair against a known later peer. */
  lemma MergedProtoPair(p: Project, q: Project)
    requires Merged(p, q)
    ensures HasProtoPair(q) <==> HasProtoPair(p)
  {
    if HasProtoPair(p) {
      var a, k :| 0 <= a < |p| && 0 <= k < |p[a].matches| && ListAbove(p, a, p[a].matches[k]);
      MergedListAbove(p, q, a, k);
    }
    if HasProtoPair(q) {
      var a, k :| 0 <= a < |q| && 0 <= k < |q[a].matches| && ListAbove(q, a, q[a].matches[k]);
      MergedListAbove(p, q, a, k);
    }
  }

  lemma MergedListAbove(p: Project, q: Project, a: nat, k: nat)
    requires Merged(p, q) && a < |p| && k < |p[a].matches|
    ensures k < |q[a].matches|
    ensures ListAbove(q, a, q[a].matches[k]) <==> ListAbove(p, a, p[a].matches[k])
  {
    var ml := p[a].matches[k];
    assert ListRewritten(p, a, ml, q[a].matches[k]);
    SameNamesSameLookup(q, p, ml.peer);
  }

  /** Deduplication empties no list, so it keeps whether some image holds a
      pair against a known later peer. */
  lemma DedupProtoPair(p: Project, q: Project)
    requires Deduped(p, q)
    ensures HasProtoPair(q) <==> HasProtoPair(p)
  {
    if HasProtoPair(p) {
      var a, k :| 0 <= a < |p| && 0 <= k < |p[a].matches| && ListAbove(p, a, p[a].matches[k]);
      DedupListAbove(p, q, a, k);
    }
    if HasProtoPair(q) {
      var a, k :| 0 <= a < |q| && 0 <= k < |q[a].matches| && ListAbove(q, a, q[a].matches[k]);
      DedupListAbove(p, q, a, k);
    }
  }

  lemma DedupListAbove(p: Project, q: Project, a: nat, k: nat)
    requires Deduped(p, q) && a < |p| && k < |p[a].matches|
    ensures k < |q[a].matches|
    ensures ListAbove(q, a, q[a].matches[k]) <==> ListAbove(p, a, p[a].matches[k])
  {
    assert ImageDeduped(p, a, q[a]);
    var ml := p[a].matches[k];
    var out := q[a].matches[k].pairs;
    assert ListDeduped(p, ml, q[a].matches[k]);
    assert forall b :: 0 <= b < |p| ==> q[b].name == p[b].name;
    SameNamesSameLookup(q, p, ml.peer);
    if |ml.pairs| > 0 {
      assert ml.pairs[0] in ml.pairs;
    }
    if |out| > 0 {
      assert out[0] in out;
    }
  }

  /** The final tracks: longest first, at most one per proto-track, each
      observing an image at most once. */
  predicate TracksOfPipeline(p: Project, us: seq<UvTrack>)
  {
    && TrackSort.LongestFirst(us)
    && |us| <= |MakeMatchStructure(p)|
    && UvDistinct(us)
  }

  /** An image observed at most once per track, on every track of `us`. */
  predicate UvDistinct(us: seq<UvTrack>)
  {
    forall a, x, y :: 0 <= a < |us| && 0 <= x < y < |us[a].obs| ==> us[a].obs[x].img != us[a].obs[y].img
  }

  lemma LinkedShape(p: Project, protos: seq<Track>, us: seq<UvTrack>)
    requires protos == MakeMatchStructure(p)
    requires TracksInRange(p, Link(protos)) && SortedMaterialized(p, Link(protos), us)
    ensures TracksOfPipeline(p, us)
  {
    var linked := Link(protos);
    LinkedDistinct(p, protos);
    MaterializedDistinct(p, linked, MaterializeAll(p, linked).value);
    PermutedDistinct(MaterializeAll(p, linked).value, us);
  }

  lemma LinkedDistinct(p: Project, protos: seq<Track>)
    requires protos == MakeMatchStructure(p)
    ensures AllDistinctImages(Link(protos))
  {
    ProtosDistinct(protos, |p|);
  }

  lemma ProtosDistinct(protos: seq<Track>, n: nat)
    requires forall t :: t in protos ==> |t.obs| == 2 && t.obs[0].img < t.obs[1].img < n && DistinctImages(t)
    ensures AllDistinctImages(protos)
  {
    forall a | 0 <= a < |protos|
      ensures DistinctImages(protos[a])
    {
      assert protos[a] in protos;
    }
  }

  lemma MaterializedDistinct(p: Project, ts: seq<Track>, us: seq<UvTrack>)
    requires AllDistinctImages(ts) && |us| == |ts|
    requires forall a :: 0 <= a < |ts| ==> Materialized(p, ts[a], us[a])
    ensures UvDistinct(us)
  {
    forall a, x, y | 0 <= a < |us| && 0 <= x < y < |us[a].obs|
      ensures us[a].obs[x].img != us[a].obs[y].img
    {
      assert Materialized(p, ts[a], us[a]);
      assert DistinctImages(ts[a]);
    }
  }

  lemma PermutedDistinct(us: seq<UvTrack>, vs: seq<UvTrack>)
    requires UvDistinct(us) && multiset(vs) == multiset(us)
    ensures UvDistinct(vs)
  {
    forall a, x, y | 0 <= a < |vs| && 0 <= x < y < |vs[a].obs|
      ensures vs[a].obs[x].img != vs[a].obs[y].img
    {
      assert vs[a] in multiset(us);
      var b :| 0 <= b < |us| && us[b] == vs[a];
    }
  }
}

=== FILE: track_sort.dfy ===
/** The final ordering of link_matches: a stable sort of the tracks by
    non-increasing number of observations. */
module TrackSort {
  import opened Types

  /** Each track has at least as many observations as every later one. */
  predicate LongestFirst(s: seq<UvTrack>)
  {
    forall a, b :: 0 <= a < b < |s| ==> |s[a].obs| >= |s[b].obs|
  }

  /** The tracks of `s` with exactly `n` observations, in their order in `s`. */
  function WithLength(s: seq<UvTrack>, n: nat): seq<UvTrack>
  {
    if |s| == 0 then []
    else (if |s[0].obs| == n then [s[0]] else []) + WithLength(s[1..], n)
  }

  lemma WithLengthCons(x: UvTrack, s: seq<UvTrack>, n: nat)
    ensures WithLength([x] + s, n) == (if |x.obs| == n then [x] else []) + WithLength(s, n)
  {
    assert ([x] + s)[1..] == s;
  }

  /** Inserts `x` before the first track no longer than it. */
  function Insert(x: UvTrack, s: seq<UvTrack>): (r: seq<UvTrack>)
    requires LongestFirst(s)
    ensures LongestFirst(r)
    ensures multiset(r) == multiset(s) + multiset{x}
    ensures forall n :: WithLength(r, n) == (if |x.obs| == n then [x] else []) + WithLength(s, n)
    decreases |s|
  {
    if |s| == 0 then
      assert forall n :: WithLength([x], n) == (if |x.obs| == n then [x] else []) + WithLength([], n) by {
        forall n { WithLengthCons(x, [], n); }
      }
      [x]
    else if |s[0].obs| <= |x.obs| then
      forall n
        ensures WithLength([x] + s, n) == (if |x.obs| == n then [x] else []) + WithLength(s, n)
      {
        WithLengthCons(x, s, n);
      }
      [x] + s
    else
      var rest := Insert(x, s[1..]);
      InsertBehindHead(x, s, rest);
      [s[0]] + rest
  }

  lemma InsertBehindHead(x: UvTrack, s: seq<UvTrack>, rest: seq<UvTrack>)
    requires |s| > 0 && LongestFirst(s) && |s[0].obs| > |x.obs|
    requires LongestFirst(rest)
    requires multiset(rest) == multiset(s[1..]) + multiset{x}
    requires forall n :: WithLength(rest, n) == (if |x.obs| == n then [x] else []) + WithLength(s[1..], n)
    ensures LongestFirst([s[0]] + rest)
    ensures multiset([s[0]] + rest) == multiset(s) + multiset{x}
    ensures forall n :: WithLength([s[0]] + rest, n) == (if |x.obs| == n then [x] else []) + WithLength(s, n)
  {
    assert s == [s[0]] + s[1..];
    HeadLongest(x, s, rest);
    forall n
      ensures WithLength([s[0]] + rest, n) == (if |x.obs| == n then [x] else []) + WithLength(s, n)
    {
      InsertBehindHeadAt(x, s, rest, n);
    }
  }

  lemma InsertBehindHeadAt(x: UvTrack, s: seq<UvTrack>, rest: seq<UvTrack>, n: nat)
    requires |s| > 0 && |s[0].obs| > |x.obs|
    requires WithLength(rest, n) == (if |x.obs| == n then [x] else []) + WithLength(s[1..], n)
    ensures WithLength([s[0]] + rest, n) == (if |x.obs| == n then [x] else []) + WithLength(s, n)
  {
    WithLengthCons(s[0], rest, n);
    WithLengthCons(s[0], s[1..], n);
    assert s == [s[0]] + s[1..];
    if |s[0].obs| == n {
      assert |x.obs| != n;
    }
  }

  lemma HeadLongest(x: UvTrack, s: seq<UvTrack>, rest: seq<UvTrack>)
    requires |s| > 0 && LongestFirst(s) && |s[0].obs| > |x.obs|
    requires LongestFirst(rest)
    requires multiset(rest) == multiset(s[1..]) + multiset{x}
    ensures LongestFirst([s[0]] + rest)
  {
    forall b | 0 <= b < |rest|
      ensures |rest[b].obs| <= |s[0].obs|
    {
      assert rest[b] in multiset(rest);
      if rest[b] != x {
        assert rest[b] in multiset(s[1..]);
        var k :| 0 <= k < |s[1..]| && s[1..][k] == rest[b];
        assert s[k + 1] == rest[b];
      }
    }
    var r := [s[0]] + rest;
    assert forall b :: 1 <= b < |r| ==> r[b] == rest[b - 1];
  }

  /** Python's `sort(key=len, reverse=True)`: stable, longest first. */
  function SortLongestFirst(s: seq<UvTrack>): (r: seq<UvTrack>)
    ensures LongestFirst(r)
    ensures multiset(r) == multiset(s)
    ensures forall n :: WithLength(r, n) == WithLength(s, n)
    decreases |s|
  {
    if |s| == 0 then []
    else
      assert s == [s[0]] + s[1..];
      Insert(s[0], SortLongestFirst(s[1..]))
  }

  /** Sortedness and the per-length order fix the result: the sort is the
      only longest-first arrangement that keeps equal lengths in order. */
  lemma {:induction false} LongestFirstUnique(r: seq<UvTrack>, s: seq<UvTrack>)
    requires LongestFirst(r) && LongestFirst(s)
    requires forall n :: WithLength(r, n) == WithLength(s, n)
    ensures r == s
    decreases |r| + |s|
  {
    if |r| > 0 {
      HeadNoShorter(r, s);
      assert WithLength(s, |s[0].obs|) == WithLength(r, |s[0].obs|);
      HeadNoShorter(s, r);
      SameHead(r, s);
      SameTails(r, s);
      LongestFirstUnique(r[1..], s[1..]);
      assert r == [r[0]] + r[1..] && s == [s[0]] + s[1..];
    } else if |s| > 0 {
      WithLengthHead(s);
      assert false;
    }
  }

  lemma WithLengthHead(s: seq<UvTrack>)
    requires |s| > 0
    ensures WithLength(s, |s[0].obs|) != []
  {
  }

  /** If `s` holds every track of `r`'s head length, its head is no shorter. */
  lemma HeadNoShorter(r: seq<UvTrack>, s: seq<UvTrack>)
    requires |r| > 0 && LongestFirst(s)
    requires WithLength(r, |r[0].obs|) == WithLength(s, |r[0].obs|)
    ensures |s| > 0 && |s[0].obs| >= |r[0].obs|
  {
    var m := |r[0].obs|;
    assert |WithLength(r, m)| > 0;
    WithLengthNonEmpty(s, m);
    var k :| 0 <= k < |s| && |s[k].obs| == m;
    if k > 0 {
      assert |s[0].obs| >= |s[k].obs|;
    }
  }

  lemma {:induction false} WithLengthNonEmpty(s: seq<UvTrack>, n: nat)
    requires WithLength(s, n) != []
    ensures exists k :: 0 <= k < |s| && |s[k].obs| == n
    decreases |s|
  {
    if |s[0].obs| != n {
      WithLengthNonEmpty(s[1..], n);
      var k :| 0 <= k < |s[1..]| && |s[1..][k].obs| == n;
      assert s[k + 1] == s[1..][k];
    }
  }

  lemma SameHead(r: seq<UvTrack>, s: seq<UvTrack>)
    requires |r| > 0 && |s| > 0 && |r[0].obs| == |s[0].obs|
    requires forall n :: WithLength(r, n) == WithLength(s, n)
    ensures r[0] == s[0]
  {
    var m := |r[0].obs|;
    assert WithLength(r, m) == WithLength(s, m);
  }

  lemma SameTails(r: seq<UvTrack>, s: seq<UvTrack>)
    requires |r| > 0 && |s| > 0 && r[0] == s[0]
    requires forall n :: WithLength(r, n) == WithLength(s, n)
    ensures forall n :: WithLength(r[1..], n) == WithLength(s[1..], n)
    ensures LongestFirst(r) ==> LongestFirst(r[1..])
    ensures LongestFirst(s) ==> LongestFirst(s[1..])
  {
    forall n
      ensures WithLength(r[1..], n) == WithLength(s[1..], n)
    {
      assert WithLength(r, n) == WithLength(s, n);
      var head := if |r[0].obs| == n then [r[0]] else [];
      assert head + WithLength(r[1..], n) == head + WithLength(s[1..], n);
      assert (head + WithLength(r[1..], n))[|head|..] == WithLength(r[1..], n);
      assert (head + WithLength(s[1..], n))[|head|..] == WithLength(s[1..], n);
    }
    assert forall a :: 1 <= a < |r| ==> r[1..][a - 1] == r[a];
    assert forall a :: 1 <= a < |s| ==> s[1..][a - 1] == s[a];
  }
}

=== FILE: types.dfy ===
/** Shared data model of the match-consolidation pipeline: images with their
    keypoints and pairwise match lists, observations and feature tracks. */
module Types {

  datatype Option<+T> = None | Some(value: T)

  /** What makes a stage abort: the source raises an exception and nothing
      downstream runs. */
  datatype Error =
    | ImageIndexOutOfRange(index: nat)
    | KeypointIndexOutOfRange(image: nat, index: nat)
    | KeyNotInRemap(image: nat, key: Coord)
      /** The closing average of link_matches divides by the number of
          tracks, and there are none. */
    | NoTracksToAverage

  datatype Result<+T> = Ok(value: T) | Err(error: Error)

  /** An image-space coordinate in fixed point (hundredths of a pixel). The
      two-decimal text key of a keypoint is this value, and two coordinates
      are "close" exactly when they are equal. */
  datatype Coord = Coord(u: int, v: int)

  /** One detected feature: its coordinate and whether it is used by any match. */
  datatype Keypoint = Keypoint(pt: Coord, used: bool)

  /** A match pair: a keypoint index in the owning image and one in the peer. */
  datatype Pair = Pair(idx1: nat, idx2: nat)

  /** The pairs an image holds against one peer image, named by that peer. */
  datatype MatchList = MatchList(peer: string, pairs: seq<Pair>)

  datatype Image = Image(
    name: string,
    kps: seq<Keypoint>,
    remap: map<Coord, nat>,
    matches: seq<MatchList>)

  type Project = seq<Image>

  /** A reference to keypoint `kp` of image `img`. */
  datatype Obs = Obs(img: nat, kp: nat)

  /** A feature track: the observations believed to show one physical point. */
  datatype Track = Track(obs: seq<Obs>)

  /** An observation after linking, carrying the keypoint's coordinate. */
  datatype UvObs = UvObs(img: nat, uv: Coord)

  datatype UvTrack = UvTrack(obs: seq<UvObs>)

  /** Name lookup of the project: the first image carrying `name`, or None. */
  function FindIndexByName(p: Project, name: string): (r: Option<nat>)
    ensures r.Some? ==> r.value < |p| && p[r.value].name == name
    ensures r.Some? ==> forall k :: 0 <= k < r.value ==> p[k].name != name
    ensures r.None? <==> forall k :: 0 <= k < |p| ==> p[k].name != name
  {
    if |p| == 0 then None
    else if p[0].name == name then Some(0)
    else match FindIndexByName(p[1..], name)
      case None => None
      case Some(j) => Some(j + 1)
  }

  /** Observations of a track that come from image `img`. */
  predicate HasImage(t: Track, img: nat)
  {
    exists k :: 0 <= k < |t.obs| && t.obs[k].img == img
  }

  /** No two observations of a track are in the same image. */
  predicate DistinctImages(t: Track)
  {
    forall a, b :: 0 <= a < b < |t.obs| ==> t.obs[a].img != t.obs[b].img
  }

  function ObsSet(t: Track): set<Obs>
  {
    set k | 0 <= k < |t.obs| :: t.obs[k]
  }

  /** Two projects whose images carry the same names answer name lookups alike. */
  lemma {:induction false} SameNamesSameLookup(p: Project, q: Project, name: string)
    requires |p| == |q| && forall a :: 0 <= a < |p| ==> p[a].name == q[a].name
    ensures FindIndexByName(p, name) == FindIndexByName(q, name)
    decreases |p|
  {
    if |p| > 0 && p[0].name != name {
      SameNamesSameLookup(p[1..], q[1..], name);
    }
  }
}
